=== FILE: README.md ===
# CopyTree, modelled in Dafny

CopyTree walks the current directory, keeps the files whose extension was
asked for, and puts one text on the clipboard. The text starts with a drawing
of the directory tree, one line per entry, each ending in a newline. Two more
newlines follow, which leave two blank lines after the drawing. Then comes
every file's bytes under a `====path====` header. The tool also prints a
summary coloured by size. With `--chatgpt` it cuts the text into sections,
cut only between lines, and hands them over one at a time. Lines go into
the current section until the next one would overflow it. A section holds at
most 20000 bytes, except that a single line longer than that stays whole as a
section of its own. The first section is handed over with a fixed prompt
prepended (main.go:118-123), so what is copied first can be longer than that.

This project models the pure core of `main.go` and proves properties of it:

- `lex.dfy` (`Lex`): Go's `<` on strings, which compares byte by byte and puts
  a proper prefix first. It proves that this is a strict total order, and it
  gives an independent description by first difference.
- `seqs.dfy` (`Seqs`): facts about sequences that the other modules share:
  removing one element, rearrangements, and sequences without repeats.
- `sorting.dfy` (`Sorting`): `sortStrings`, an insertion sort on a string
  slice, and a reference `Sort`. The sort's output depends only on which
  strings it gets, not on their order.
- `lines.dfy` (`Lines`): `strings.Split(s, "\n")` and its inverse
  `strings.Join`, and the newline count of `bytes.Count`.
- `sections.dfy` (`Sections`): `splitIntoSections`. It covers its section
  bound, how it packs lines into sections, that each section is a run of
  whole lines of the text, the empty lines it drops, its round trip, and the
  case where it returns no section at all.
- `tree.dfy` (`Tree`): `TreeNode` and `buildTree`. The tree reaches exactly
  the prefixes of the input paths, a node is a file exactly when the first
  path through it ends there, and children's names stay distinct.
- `render.dfy` (`Render`): `buildTreeString`, which is the same walk as
  `printTreeRec`. Siblings are drawn in strictly ascending order and each one
  once, one line per node. The drawing depends only on the set of paths, and
  a worked three-file example is included.
- `report.dfy` (`Report`): the text written for each file, the three
  counters, the size tier, and the assembled buffer. The buffer always gives
  `sections[0]`.

Go strings and byte slices are `seq<char>` with one `char` per byte. The
box-drawing glyphs are therefore written as their UTF-8 bytes, so lengths
agree with Go's `len`. A `TreeNode`'s `map[string]*TreeNode` of children is
a sequence of nodes with distinct names. Looking up a key finds the child of
that name.

Four behaviours of `main.go` worth knowing:

- **Header path.** The header is written with `filepath.Join(".", rel)`
  (main.go:80). `Join` cleans away the leading `./`, so the header shows the
  plain relative path.
- **Empty files.** An empty file gets no added newline (main.go:86), so its
  text is its header alone.
- **Empty input to the splitter.** A text within the bound, the empty text
  included, comes back as a single section. The zero-section result happens
  only for an over-long text made of newlines only (`NoSectionsIffOnlyNewlines`).
  The buffer `main` builds can never be such a text (`FirstSectionExists`).
- **Lines the splitter drops.** Joining the sections with newlines does not
  in general give the buffer back. After a cut the builder is empty, and an
  empty line arriving then adds nothing (main.go:149-156). So an empty line
  right after a cut is lost (`CutDropsEmptyLine`). A final newline right after
  a cut is lost the same way (`CutDropsFinalNewline`). For example, `"ab\n\ncd"`
  and `"ab\n"` at bound 2 give `["ab", "cd"]` and `["ab"]`. The exact round
  trip is proved only for texts with no empty line (`SectionsRoundTrip`); it
  can hold for other texts, such as any text within the bound. The buffer
  `main` builds always ends in a newline, so that lemma's precondition never
  holds for it (`OutputEndsInNewline`). What is proved for every buffer is
  that every non-empty line survives, once and in order (`SectionsKeepLines`),
  and more exactly that the text's lines are the sections' own lines, in
  order, with only runs of empty lines added before, between or after them
  (`SectionsAreLineRuns`). An empty line that fits stays inside its section
  (`KeepsInnerEmptyLine`): `"a\n\nb\ncc"` at bound 6 gives `["a\n\nb", "cc"]`.

## Model

| member | source | states |
|---|---|---|
| Lex.LessIrreflexive | main.go:259 | No string sorts before itself. |
| Lex.LessTransitive | main.go:259 | The byte-wise string order is transitive. |
| Lex.LessTotal | main.go:259 | Of two different strings, one sorts before the other, so the sorted key order is unique. |
| Lex.LessAsymmetric | main.go:259 | Two strings never sort before each other. |
| Lex.LessIffFirstDifference | main.go:259 | `a < b` holds exactly when `a` is a proper prefix of `b` or, at the first position where they differ, `a` has the smaller byte. |
| Lex.SortedUnique | main.go:257-263 | Two ascending lists that hold the same strings, counted with repeats, are equal. |
| Seqs.DistinctSameElements | main.go:208-211 | Two lists without repeats that hold the same elements hold them the same number of times. So the map's key list is fixed, up to order, by the key set. |
| Sorting.InsertSorted | main.go:259-261 | Sinking one string into an ascending list keeps it ascending and adds exactly that string. |
| Sorting.Sort | main.go:257-263 | The reference sort: its result is ascending and a rearrangement of its input. |
| Sorting.SortDeterminedByMultiset | main.go:208-212 | Lists holding the same strings sort to the same result, so Go's random map iteration order cannot change the keys' order. |
| Sorting.SortStrings | main.go:257-263 | The insertion sort leaves the strings ascending, as a rearrangement of the input, and equal to the reference sort. |
| Lines.SplitHasNoNewlines | main.go:144 | No piece of `strings.Split(s, "\n")` holds a newline. |
| Lines.SplitCount | main.go:144 | A split has one more piece than the text has newlines. |
| Lines.JoinSplit | main.go:144 | Joining the pieces of a split with newlines gives the text back. |
| Lines.SplitJoin | main.go:144 | Splitting newline-joined lines gives the lines back. |
| Sections.FeedAllGood | main.go:147-157 | The loop invariant: every closed section, and the open buffer, has a non-newline byte and fits the bound unless it is one over-long line. |
| Sections.SplitIntoSections | main.go:140-162 | A text within the bound comes back whole. Otherwise no section is empty or newlines only. Every section fits the bound unless it is a single over-long line. Sections are packed: every section but the last, a separator and the next section's first line would not fit the bound together. |
| Sections.PacksLines | main.go:147-157 | Two lines that fit the bound together share a section, and a third line that would overflow it starts the next section. |
| Sections.PackExample | main.go:140-162 | `"a\nb\ncd"` at bound 4 gives `["a\nb", "cd"]`. |
| Sections.SectionsKeepLines | main.go:144-160 | The sections' lines, with empty lines dropped, are exactly the text's non-empty lines in order: none lost, duplicated or reordered. |
| Sections.SectionsAreLineRuns | main.go:140-162 | For every text and bound, the text's lines are the sections' own lines, section after section and empty lines inside a section included, with a run of empty lines (possibly none) before the first section, between any two and after the last; nothing else is lost. |
| Sections.FeedWeave | main.go:147-157 | One step of the loop keeps that shape: the lines read so far are the closed sections and the builder woven with runs of empty lines, and no empty line waits after a non-empty builder. |
| Sections.FeedAllWeave | main.go:147-157 | The whole loop keeps that shape: after reading more lines, the woven pieces are the earlier ones followed by exactly those lines. |
| Sections.KeepsInnerEmptyLine | main.go:147-157 | A line, an empty line and a second line that fit the bound together form one section with the empty line kept inside it, and a line that would overflow it starts the next section. |
| Sections.InnerEmptyLineExample | main.go:140-162 | `"a\n\nb\ncc"` at bound 6 gives `["a\n\nb", "cc"]`. |
| Sections.NoEmptyLineChars | main.go:144 | No piece of the split is empty exactly when the text is non-empty, neither starts nor ends with a newline, and never holds two newlines in a row. |
| Sections.SectionsRoundTrip | main.go:140-162 | For a text with no empty line, joining the sections with newlines gives the text back. |
| Sections.CutDropsEmptyLine | main.go:147-161 | When a line fills the bound by itself, the empty line after it is dropped: the sections are that line and the next, and joining them does not give the text back. |
| Sections.CutDropsFinalNewline | main.go:147-161 | When the last line fills the bound by itself, the final newline after it is dropped, and joining the sections does not give the text back. |
| Sections.LostLineExamples | main.go:140-162 | `"ab\n\ncd"` and `"ab\n"` at bound 2 split into `["ab", "cd"]` and `["ab"]`, whose joins differ from the inputs. |
| Sections.NoSectionsIffOnlyNewlines | main.go:140-161 | The splitter returns no section exactly when the text is over the bound and made of newlines only. |
| Tree.IndexOf | main.go:243 | The map lookup finds the first child of that name, and finds none exactly when no child has it. |
| Tree.FirstCover | main.go:238-252 | Finds the first input path that passes through a node, and finds none exactly when no path does. |
| Tree.InsertWellFormed | main.go:242-251 | Inserting a path never gives a node two children of the same name. |
| Tree.InsertAt | main.go:241-251 | After inserting a path, the reachable nodes are the old ones plus every prefix of the path. An old node keeps its file flag; a new node is a file exactly when it is the whole path. |
| Tree.BuildFromAt | main.go:238-252 | The same for a list of paths inserted in order: a new node's file flag is set by the first path that passes through it. |
| Tree.BuildAt | main.go:236-254 | `buildTree` reaches the root and exactly the prefixes of the input paths. A node is a file exactly when the first input path through it ends there. |
| Tree.BuildFromWellFormed | main.go:236-254 | The built tree keeps children's names distinct, and the root keeps its name `"."`. |
| Tree.FilesAreInputPaths | main.go:236-254 | When no input path is a proper prefix of another, as for a walk's files, the file nodes are exactly the input paths. |
| Render.SiblingOrder | main.go:208-215 | In a well-formed node, the children are visited in strictly ascending name order, and each child exactly once. |
| Render.RenderLineCount | main.go:196-226 | When no name holds a newline, the drawing has exactly one line per node not named `"."`. |
| Render.RenderSameReach | main.go:196-226 | Two well-formed nodes with the same name and the same reachable paths draw the same text: file flags and the order children were added in never show. |
| Render.TreeTextDependsOnPathSet | main.go:196-254 | The tree text depends only on the set of input paths: their order and repeats do not matter. |
| Render.RootText | main.go:198-207 | The root `"."` prints no line of its own, and its children are drawn flush left. |
| Render.KidsTwo | main.go:213-225 | Of two differently named children drawn in their stored order, the first is drawn with the middle glyph and the second with the last glyph. |
| Render.TwoFileDir | main.go:196-226 | A top-level directory that is not the last one, holding two files `f < g`, is drawn as its `├──` line, then `f` and `g` in that order under a `│` bar. |
| Render.ThreeFileBuild | main.go:236-254 | The paths `p/f`, `p/g` and `q/h` build one directory `p` holding both files, and then `q`. |
| Render.ThreeFileExample | main.go:196-254 | The files `a/x.go`, `a/y.go` and `b/z.go` draw as `├── a`, `│   ├── x.go`, `│   └── y.go`, `└── b`, `    └── z.go`. |
| Report.Block | main.go:80-88 | Every file's text starts with its header and ends in a newline. An unreadable file gives the header alone. A readable file's bytes follow the header intact, and exactly one newline is added exactly when they are non-empty and do not end in one. |
| Report.BlocksInOrder | main.go:78-92 | Each file's text sits whole between the texts of the files before and after it, in file-list order. |
| Report.TotalsMeasureContents | main.go:78-92 | The counters are the number of readable files, the newlines in their contents taken together, and those contents' total byte length. |
| Report.Classify | main.go:101-109 | The summary is green up to 20000 characters, yellow up to 50000, and red above. |
| Report.ClassifyMonotone | main.go:102-109 | A larger output never gets a milder tier: green, yellow and red follow the character count upward. |
| Report.FirstSectionExists | main.go:114-123 | Splitting the assembled buffer always gives at least one section, so `sections[0]` is in range. |
| Report.OutputEndsInNewline | main.go:73-92 | The assembled buffer always ends in a newline, so it always has an empty last line and the precondition of `SectionsRoundTrip` never holds for it. |
| Report.TwoFileSummary | main.go:78-92 | For files holding `"ab\n"` and `"cd"`, the counters are 2 files, 1 line and 5 characters, and `cd` gets a newline appended. |

## Left out

- Walking the directory, reading files, `os.Getwd`, the clipboard, standard input and printing (main.go:34-64, 81, 94-136) are I/O. A file's relative path segments, its header path and its bytes (or a read failure) are inputs of `Report.FileEntry`.
- The extension filter and argument parsing (main.go:20-32, 48-61) are not modelled. The list of matched files is an input.
- `filepath.Rel`, `filepath.Join` and splitting on the path separator (main.go:79-80, 239-240) are not modelled. The segments and the displayed path are taken as given.
- The ANSI colour escapes and summary wording (main.go:99-110) are left out. Only the tier choice is modelled.
- The ChatGPT prompt text prepended to the first section (main.go:118-123) is left out. Only the fact that `sections[0]` exists is modelled.
- `printTreeRec` (main.go:165-193) is not modelled separately. It prints exactly the lines `buildTreeString` returns, and `Render.Render` models both.
- Sorting.SortStrings: it sorts a copy and returns it, where Go sorts the slice in place. The swaps and comparisons are the same.
- Render.RenderKids: a key missing from the map would draw nothing. That branch cannot be taken, because every key comes from the map itself.
- Go's `int` counters are unbounded integers here. Overflow would need more than 2^63 bytes of input.

=== FILE: lex.dfy ===
/**
  Go's built-in ordering on strings: bytewise lexicographic comparison in
  which a proper prefix sorts first. Strings are sequences of characters with
  one character per byte of the Go string.
*/
module Lex {
  import opened Seqs

  /** `a < b` on Go strings. */
  predicate Less(a: string, b: string)
    decreases |a|
  {
    if |a| == 0 then |b| > 0
    else if |b| == 0 then false
    else if a[0] != b[0] then a[0] < b[0]
    else Less(a[1..], b[1..])
  }

  /** The slice `s` is in ascending order: no later element is below an earlier one. */
  predicate Sorted(s: seq<string>) {
    forall i, j :: 0 <= i < j < |s| ==> !Less(s[j], s[i])
  }

  /** The slice `s` is in strictly ascending order. */
  predicate StrictlySorted(s: seq<string>) {
    forall i, j :: 0 <= i < j < |s| ==> Less(s[i], s[j])
  }

  /** No string is below itself. */
  lemma {:induction false} LessIrreflexive(a: string)
    ensures !Less(a, a)
    decreases |a|
  {
    if |a| > 0 {
      LessIrreflexive(a[1..]);
    }
  }

  lemma {:induction false} LessTransitive(a: string, b: string, c: string)
    requires Less(a, b) && Less(b, c)
    ensures Less(a, c)
    decreases |a|
  {
    if |a| > 0 && a[0] == b[0] && b[0] == c[0] {
      LessTransitive(a[1..], b[1..], c[1..]);
    }
  }

  /** Two different strings are always comparable. */
  lemma {:induction false} LessTotal(a: string, b: string)
    requires a != b
    ensures Less(a, b) || Less(b, a)
    decreases |a|
  {
    if |a| > 0 && |b| > 0 && a[0] == b[0] {
      assert a == [a[0]] + a[1..] && b == [b[0]] + b[1..];
      LessTotal(a[1..], b[1..]);
    }
  }

  lemma {:induction false} LessAsymmetric(a: string, b: string)
    requires Less(a, b)
    ensures !Less(b, a)
    decreases |a|
  {
    if |a| > 0 && |b| > 0 && a[0] == b[0] {
      LessAsymmetric(a[1..], b[1..]);
    }
  }

  /** "Not below" is transitive: it is the non-strict order `<=`. */
  lemma NotLessTransitive(a: string, b: string, c: string)
    requires !Less(b, a) && !Less(c, b)
    ensures !Less(c, a)
  {
    if a != b && b != c {
      LessTotal(a, b);
      LessTotal(b, c);
      LessTransitive(a, b, c);
      LessAsymmetric(a, c);
    } else if a == b && b != c {
      assert !Less(c, a);
    }
  }

  /** `a` and `b` agree up to some position at which `a` holds the smaller byte. */
  predicate DiffersBelow(a: string, b: string) {
    exists k :: 0 <= k < |a| && k < |b| && a[..k] == b[..k] && a[k] < b[k]
  }

  /** A first difference after a shared head is a first difference of the tails, one position earlier. */
  lemma DiffersBelowDrop(a: string, b: string)
    requires |a| > 0 && |b| > 0 && a[0] == b[0] && DiffersBelow(a, b)
    ensures DiffersBelow(a[1..], b[1..])
  {
    var a', b' := a[1..], b[1..];
    var k :| 0 <= k < |a| && k < |b| && a[..k] == b[..k] && a[k] < b[k];
    assert k != 0;
    assert a'[..k - 1] == a[..k][1..];
    assert b'[..k - 1] == b[..k][1..];
    assert a'[k - 1] < b'[k - 1];
  }

  /** A first difference of the tails is one of the whole strings when their heads agree. */
  lemma DiffersBelowAdd(a: string, b: string)
    requires |a| > 0 && |b| > 0 && a[0] == b[0] && DiffersBelow(a[1..], b[1..])
    ensures DiffersBelow(a, b)
  {
    var a', b' := a[1..], b[1..];
    var k :| 0 <= k < |a'| && k < |b'| && a'[..k] == b'[..k] && a'[k] < b'[k];
    assert a[..k + 1] == [a[0]] + a'[..k];
    assert b[..k + 1] == [b[0]] + b'[..k];
    assert a[k + 1] < b[k + 1];
  }

  lemma DiffersBelowTail(a: string, b: string)
    requires |a| > 0 && |b| > 0 && a[0] == b[0]
    ensures DiffersBelow(a, b) <==> DiffersBelow(a[1..], b[1..])
  {
    if DiffersBelow(a, b) {
      DiffersBelowDrop(a, b);
    }
    if DiffersBelow(a[1..], b[1..]) {
      DiffersBelowAdd(a, b);
    }
  }

  lemma DiffersBelowHead(a: string, b: string)
    requires |a| > 0 && |b| > 0 && a[0] != b[0]
    ensures DiffersBelow(a, b) <==> a[0] < b[0]
  {
    assert a[..0] == b[..0];
    forall k | 0 < k <= |a| && k <= |b|
      ensures a[..k] != b[..k]
    {
      assert a[..k][0] == a[0] && b[..k][0] == b[0];
    }
  }

  /**
    An independent description of `Less`: `a` is a proper prefix of `b`, or
    the two agree up to some position where `a` has the smaller byte.
  */
  lemma {:induction false} LessIffFirstDifference(a: string, b: string)
    ensures Less(a, b) <==> (a < b || DiffersBelow(a, b))
    decreases |a|
  {
    if |a| > 0 && |b| > 0 {
      if a[0] == b[0] {
        LessIffFirstDifference(a[1..], b[1..]);
        DiffersBelowTail(a, b);
        assert a == [a[0]] + a[1..] && b == [b[0]] + b[1..];
        assert a < b <==> a[1..] < b[1..];
      } else {
        DiffersBelowHead(a, b);
        assert !(a < b);
      }
    }
  }

  /** The first element of an ascending slice is below no other element. */
  lemma SortedHeadLeast(s: seq<string>, x: string)
    requires Sorted(s) && x in s
    ensures !Less(x, s[0])
  {
    var j :| 0 <= j < |s| && s[j] == x;
    if j > 0 {
      assert !Less(s[j], s[0]);
    } else {
      LessIrreflexive(x);
    }
  }

  lemma SortedTail(s: seq<string>)
    requires Sorted(s) && |s| > 0
    ensures Sorted(s[1..])
  {
    forall i, j | 0 <= i < j < |s| - 1
      ensures !Less(s[1..][j], s[1..][i])
    {
      assert s[1..][j] == s[j + 1] && s[1..][i] == s[i + 1];
    }
  }

  /** The unique-result property of sorting: two ascending slices with the same elements are equal. */
  lemma {:induction false} SortedUnique(a: seq<string>, b: seq<string>)
    requires Sorted(a) && Sorted(b)
    requires multiset(a) == multiset(b)
    ensures a == b
    decreases |a|
  {
    if |a| == 0 {
      assert |multiset(b)| == 0;
    } else {
      assert |b| == |multiset(b)| == |multiset(a)| > 0;
      assert a[0] in multiset(b) && b[0] in multiset(a);
      SortedHeadLeast(b, a[0]);
      SortedHeadLeast(a, b[0]);
      if a[0] != b[0] {
        LessTotal(a[0], b[0]);
      }
      PermRest(a, b, 0);
      assert RemoveAt(b, 0) == b[1..];
      SortedTail(a);
      SortedTail(b);
      SortedUnique(a[1..], b[1..]);
    }
  }

  /** An ascending slice without repeats is strictly ascending. */
  lemma SortedDistinctStrict(s: seq<string>)
    requires Sorted(s) && Distinct(s)
    ensures StrictlySorted(s)
  {
    forall i, j | 0 <= i < j < |s|
      ensures Less(s[i], s[j])
    {
      LessTotal(s[i], s[j]);
    }
  }
}

=== FILE: lines.dfy ===
/**
  Go's `strings.Split(s, "\n")` and its inverse `strings.Join(lines, "\n")`,
  on which the section splitter is built.
*/
module Lines {

  /** Number of occurrences of `c` in `s` (Go's `bytes.Count` with a one-byte separator). */
  function Count(s: string, c: char): nat
    decreases |s|
  {
    if |s| == 0 then 0 else (if s[0] == c then 1 else 0) + Count(s[1..], c)
  }

  /** `strings.Split(s, "\n")`: the pieces between newlines; `""` gives `[""]`. */
  function Split(s: string): (lines: seq<string>)
    ensures |lines| >= 1
    decreases |s|
  {
    if |s| == 0 then [""]
    else
      var rest := Split(s[1..]);
      if s[0] == '\n' then [""] + rest
      else [[s[0]] + rest[0]] + rest[1..]
  }

  /** `strings.Join(lines, "\n")`. */
  function Join(lines: seq<string>): string
    decreases |lines|
  {
    if |lines| == 0 then ""
    else if |lines| == 1 then lines[0]
    else lines[0] + "\n" + Join(lines[1..])
  }

  /** Every piece of a split is a line: it holds no newline. */
  predicate NoNewlines(lines: seq<string>) {
    forall i :: 0 <= i < |lines| ==> '\n' !in lines[i]
  }

  lemma {:induction false} SplitHasNoNewlines(s: string)
    ensures NoNewlines(Split(s))
    decreases |s|
  {
    if |s| > 0 {
      SplitHasNoNewlines(s[1..]);
      var rest := Split(s[1..]);
      if s[0] != '\n' {
        assert '\n' !in rest[0];
        assert forall i :: 1 <= i < |Split(s)| ==> Split(s)[i] == rest[i];
      }
    }
  }

  /** A split has one more piece than the text has newlines. */
  lemma {:induction false} SplitCount(s: string)
    ensures |Split(s)| == Count(s, '\n') + 1
    decreases |s|
  {
    if |s| > 0 {
      SplitCount(s[1..]);
    }
  }

  lemma JoinCons(x: string, xs: seq<string>)
    requires |xs| > 0
    ensures Join([x] + xs) == x + "\n" + Join(xs)
  {
    assert ([x] + xs)[1..] == xs;
  }

  /** Joining the pieces of a split gives back the text. */
  lemma {:induction false} JoinSplit(s: string)
    ensures Join(Split(s)) == s
    decreases |s|
  {
    if |s| > 0 {
      JoinSplit(s[1..]);
      var rest := Split(s[1..]);
      assert s == [s[0]] + s[1..];
      if s[0] == '\n' {
        JoinCons("", rest);
      } else if |rest| == 1 {
        assert Split(s) == [[s[0]] + rest[0]];
      } else {
        JoinCons([s[0]] + rest[0], rest[1..]);
        JoinCons(rest[0], rest[1..]);
        assert rest == [rest[0]] + rest[1..];
      }
    }
  }

  /** A string without newlines splits into itself alone. */
  lemma {:induction false} SplitLine(l: string)
    requires '\n' !in l
    ensures Split(l) == [l]
    decreases |l|
  {
    if |l| > 0 {
      SplitLine(l[1..]);
      assert l == [l[0]] + l[1..];
    }
  }

  /** Splitting `b + "\n" + l` for a line `l` adds `l` as one more piece after those of `b`. */
  lemma {:induction false} SplitAppendLine(b: string, l: string)
    requires '\n' !in l
    ensures Split(b + "\n" + l) == Split(b) + [l]
    decreases |b|
  {
    if |b| == 0 {
      assert b + "\n" + l == ['\n'] + l;
      assert (['\n'] + l)[1..] == l;
      SplitLine(l);
    } else {
      SplitAppendLine(b[1..], l);
      assert (b + "\n" + l)[1..] == b[1..] + "\n" + l;
      assert (b + "\n" + l)[0] == b[0];
    }
  }

  /** Splitting joined lines gives the lines back: `Split` and `Join` are inverse on lists of lines. */
  lemma {:induction false} SplitJoin(lines: seq<string>)
    requires |lines| >= 1 && NoNewlines(lines)
    ensures Split(Join(lines)) == lines
    decreases |lines|
  {
    var n := |lines|;
    if n == 1 {
      SplitLine(lines[0]);
    } else {
      var front := lines[..n - 1];
      JoinSnoc(front, lines[n - 1]);
      SplitJoin(front);
      SplitAppendLine(Join(front), lines[n - 1]);
      assert lines == front + [lines[n - 1]];
    }
  }

  /** Joining with one more line at the end appends a newline and that line. */
  lemma {:induction false} JoinSnoc(xs: seq<string>, y: string)
    requires |xs| > 0
    ensures Join(xs + [y]) == Join(xs) + "\n" + y
    decreases |xs|
  {
    if |xs| == 1 {
      assert xs + [y] == [xs[0]] + [y];
    } else {
      JoinSnoc(xs[1..], y);
      assert (xs + [y])[1..] == xs[1..] + [y];
    }
  }

  /** Joining two non-empty lists puts one newline between their joins. */
  lemma {:induction false} JoinAppend(xs: seq<string>, ys: seq<string>)
    requires |xs| > 0 && |ys| > 0
    ensures Join(xs + ys) == Join(xs) + "\n" + Join(ys)
    decreases |xs|
  {
    if |xs| == 1 {
      JoinCons(xs[0], ys);
      assert xs + ys == [xs[0]] + ys;
    } else {
      JoinAppend(xs[1..], ys);
      assert (xs + ys)[1..] == xs[1..] + ys;
    }
  }

  lemma {:induction false} CountAppend(a: string, b: string, c: char)
    ensures Count(a + b, c) == Count(a, c) + Count(b, c)
    decreases |a|
  {
    if |a| == 0 {
      assert a + b == b;
    } else {
      CountAppend(a[1..], b, c);
      assert (a + b)[0] == a[0];
      assert (a + b)[1..] == a[1..] + b;
    }
  }

  lemma {:induction false} CountAbsent(s: string, c: char)
    requires c !in s
    ensures Count(s, c) == 0
    decreases |s|
  {
    if |s| > 0 {
      assert s[0] != c;
      CountAbsent(s[1..], c);
    }
  }
}

=== FILE: options.dfy ===
/** Optional values: Go's comma-ok lookups and "not found" results. */
module Options {

  datatype Option<+T> = None | Some(value: T)
}

=== FILE: render.dfy ===
/**
  `buildTreeString` (main.go:196-227) and `printTreeRec` (main.go:165-193):
  the same depth-first walk, once into a string and once onto stdout, so it
  is modelled once, as a function producing the text.
*/
module Render {
  import opened Seqs
  import opened Options
  import opened Lex
  import opened Sorting
  import opened Lines
  import opened Tree

  // Strings model Go strings byte by byte, so the box-drawing glyphs appear
  // as their UTF-8 bytes: U+2514 is E2 94 94, U+251C is E2 94 9C, U+2500 is
  // E2 94 80 and U+2502 is E2 94 82.

  /** `"└── "`: branch glyph before the last child of a node. */
  const LastBranch: string := "\U{E2}\U{94}\U{94}\U{E2}\U{94}\U{80}\U{E2}\U{94}\U{80} "
  /** `"├── "`: branch glyph before every other child. */
  const MidBranch: string := "\U{E2}\U{94}\U{9C}\U{E2}\U{94}\U{80}\U{E2}\U{94}\U{80} "
  /** Prefix extension below a node that was its parent's last child. */
  const LastPad: string := "    "
  /** `"│   "`: prefix extension below any other node. */
  const MidPad: string := "\U{E2}\U{94}\U{82}   "

  /** The line a node prints for itself (main.go:198-207); a node named `"."` prints none. */
  function Head(n: Node, prefix: string, last: bool): string {
    if n.name == RootName then "" else prefix + (if last then LastBranch else MidBranch) + n.name + "\n"
  }

  /** The prefix every child of `n` is rendered with (main.go:216-223). */
  function ChildPrefix(n: Node, prefix: string, last: bool): string {
    if n.name == RootName then "" else if last then prefix + LastPad else prefix + MidPad
  }

  /** The child names of `n` in the order they are visited: the map's keys, sorted (main.go:208-212). */
  function Keys(n: Node): seq<string> {
    Sort(Names(n.children))
  }

  /** `buildTreeString(n, prefix, last)`. */
  function Render(n: Node, prefix: string, last: bool): string
    decreases n, 1, 0
  {
    Head(n, prefix, last) + RenderKids(n, Keys(n), ChildPrefix(n, prefix, last))
  }

  /**
    The loop of main.go:213-225 over the remaining `keys`: each key's child is
    rendered with the shared prefix and is the last one when no key follows.
  */
  function RenderKids(n: Node, keys: seq<string>, prefix: string): string
    decreases n, 0, |keys|
  {
    if |keys| == 0 then ""
    else
      var first :=
        match Child(n, keys[0])
        case Some(k) => Render(n.children[k], prefix, |keys| == 1)
        case None => "";
      first + RenderKids(n, keys[1..], prefix)
  }

  /** The tree text `main` prints and puts first in the buffer (main.go:70, 73). */
  function TreeText(root: Node): string {
    Render(root, "", true)
  }

  // Which children are visited, and in which order.

  /** The child a key names, if any: what one turn of the loop renders. */
  function Named(n: Node, key: string): seq<Node> {
    match Child(n, key)
    case Some(k) => [n.children[k]]
    case None => []
  }

  /** The children `RenderKids(n, keys, _)` renders, in order. */
  function Visit(n: Node, keys: seq<string>): seq<Node>
    decreases |keys|
  {
    if |keys| == 0 then [] else Named(n, keys[0]) + Visit(n, keys[1..])
  }

  /** Taking the `j`-th key out of the list takes its child out of the visited ones. */
  lemma {:induction false} VisitRemove(n: Node, b: seq<string>, j: int)
    requires 0 <= j < |b|
    ensures multiset(Visit(n, b)) == multiset(Named(n, b[j])) + multiset(Visit(n, b[..j] + b[j + 1..]))
    decreases j
  {
    if j == 0 {
      assert b[..j] + b[j + 1..] == b[1..];
    } else {
      var t := b[1..];
      VisitRemove(n, t, j - 1);
      var r := b[..j] + b[j + 1..];
      RemoveLater(b, j);
      assert Visit(n, b) == Named(n, b[0]) + Visit(n, t);
      assert Visit(n, r) == Named(n, b[0]) + Visit(n, t[..j - 1] + t[j..]);
      MultisetShift(Named(n, b[0]), Visit(n, t), Named(n, b[j]), Visit(n, t[..j - 1] + t[j..]));
    }
  }

  /** Visiting a rearrangement of the keys visits a rearrangement of the children. */
  lemma {:induction false} VisitPerm(n: Node, a: seq<string>, b: seq<string>)
    requires multiset(a) == multiset(b)
    ensures multiset(Visit(n, a)) == multiset(Visit(n, b))
    decreases |a|
  {
    if |a| == 0 {
      assert |multiset(b)| == 0;
    } else {
      assert a[0] in multiset(b);
      var j :| 0 <= j < |b| && b[j] == a[0];
      var b' := RemoveAt(b, j);
      assert b' == b[..j] + b[j + 1..];
      PermRest(a, b, j);
      VisitRemove(n, b, j);
      VisitPerm(n, a[1..], b');
      assert Visit(n, a) == Named(n, a[0]) + Visit(n, a[1..]);
    }
  }

  /** Looking up a stored child's own name finds that child. */
  lemma NamedStored(n: Node, j: int)
    requires DistinctNames(n.children) && 0 <= j < |n.children|
    ensures Named(n, Names(n.children)[j]) == [n.children[j]]
  {
    ChildOfDistinct(n.children, j);
  }

  /** Visiting the keys in the order they are stored visits the children in the order they are stored. */
  lemma {:induction false} VisitStoredOrder(n: Node, j: nat)
    requires DistinctNames(n.children) && j <= |n.children|
    ensures Visit(n, Names(n.children)[j..]) == n.children[j..]
    decreases |n.children| - j
  {
    var names := Names(n.children);
    if j < |n.children| {
      VisitStoredOrder(n, j + 1);
      NamedStored(n, j);
      SliceCons(names, j);
      SliceCons(n.children, j);
      assert Visit(n, names[j..]) == Named(n, names[j]) + Visit(n, names[j + 1..]);
    } else {
      assert names[j..] == [];
    }
  }

  /**
    Siblings are rendered in strictly ascending name order, and every child
    is rendered exactly once.
  */
  lemma SiblingOrder(n: Node)
    requires WellFormed(n)
    ensures StrictlySorted(Keys(n))
    ensures multiset(Visit(n, Keys(n))) == multiset(n.children)
  {
    var names := Names(n.children);
    DistinctPerm(names, Keys(n));
    SortedDistinctStrict(Keys(n));
    VisitPerm(n, Keys(n), names);
    VisitStoredOrder(n, 0);
    assert names[0..] == names && n.children[0..] == n.children;
  }

  // One line per shown node.

  /** Number of nodes in the subtree of `n` that print a line: those not named `"."`. */
  function Shown(n: Node): nat
    decreases n
  {
    (if n.name == RootName then 0 else 1) + ShownAll(n.children)
  }

  /** `Shown`, summed over a list of nodes. */
  function ShownAll(cs: seq<Node>): nat
    decreases cs
  {
    if |cs| == 0 then 0 else Shown(cs[0]) + ShownAll(cs[1..])
  }

  lemma {:induction false} ShownAllAppend(a: seq<Node>, b: seq<Node>)
    ensures ShownAll(a + b) == ShownAll(a) + ShownAll(b)
    decreases |a|
  {
    if |a| == 0 {
      assert a + b == b;
    } else {
      ShownAllAppend(a[1..], b);
      assert (a + b)[0] == a[0];
      assert (a + b)[1..] == a[1..] + b;
    }
  }

  /** Taking the `j`-th node out of a list takes its shown count out of the sum. */
  lemma {:induction false} ShownAllRemove(b: seq<Node>, j: int)
    requires 0 <= j < |b|
    ensures ShownAll(b) == Shown(b[j]) + ShownAll(b[..j] + b[j + 1..])
    decreases j
  {
    if j == 0 {
      assert b[..j] + b[j + 1..] == b[1..];
    } else {
      var t := b[1..];
      ShownAllRemove(t, j - 1);
      RemoveLater(b, j);
    }
  }

  lemma {:induction false} ShownAllPerm(a: seq<Node>, b: seq<Node>)
    requires multiset(a) == multiset(b)
    ensures ShownAll(a) == ShownAll(b)
    decreases |a|
  {
    if |a| == 0 {
      assert |multiset(b)| == 0;
    } else {
      assert a[0] in multiset(b);
      var j :| 0 <= j < |b| && b[j] == a[0];
      ShownAllRemove(b, j);
      var b' := RemoveAt(b, j);
      assert b' == b[..j] + b[j + 1..];
      PermRest(a, b, j);
      ShownAllPerm(a[1..], b');
      assert ShownAll(a) == Shown(a[0]) + ShownAll(a[1..]);
    }
  }

  /** No name anywhere in the subtree holds a newline. */
  predicate PlainNames(n: Node) {
    '\n' !in n.name && forall i :: 0 <= i < |n.children| ==> PlainNames(n.children[i])
  }

  /** The branch glyphs hold no line break. */
  lemma GlyphsPlain()
    ensures '\n' !in LastBranch && '\n' !in MidBranch
  {
    assert forall i :: 0 <= i < |LastBranch| ==> LastBranch[i] != '\n';
    assert forall i :: 0 <= i < |MidBranch| ==> MidBranch[i] != '\n';
  }

  lemma HeadCount(n: Node, prefix: string, last: bool)
    requires '\n' !in n.name && '\n' !in prefix
    ensures Count(Head(n, prefix, last), '\n') == if n.name == RootName then 0 else 1
  {
    if n.name != RootName {
      var glyph := if last then LastBranch else MidBranch;
      GlyphsPlain();
      CountAppend(prefix + glyph + n.name, "\n", '\n');
      CountAppend(prefix + glyph, n.name, '\n');
      CountAppend(prefix, glyph, '\n');
      CountAbsent(prefix, '\n');
      CountAbsent(glyph, '\n');
      CountAbsent(n.name, '\n');
    }
  }

  /**
    The rendered text has exactly one line per node that is not named `"."`:
    the root prints nothing itself and every other node prints one line.
  */
  lemma {:induction false} RenderLineCount(n: Node, prefix: string, last: bool)
    requires WellFormed(n) && PlainNames(n) && '\n' !in prefix
    ensures Count(Render(n, prefix, last), '\n') == Shown(n)
    decreases n, 1
  {
    var cp := ChildPrefix(n, prefix, last);
    assert '\n' !in cp;
    HeadCount(n, prefix, last);
    KidsLineCount(n, Keys(n), cp);
    CountAppend(Head(n, prefix, last), RenderKids(n, Keys(n), cp), '\n');
    SiblingOrder(n);
    ShownAllPerm(Visit(n, Keys(n)), n.children);
  }

  /** Every child of `n` is well formed and has plain names throughout. */
  predicate KidsFine(n: Node) {
    forall i :: 0 <= i < |n.children| ==> WellFormed(n.children[i]) && PlainNames(n.children[i])
  }

  lemma {:induction false} KidsLineCount(n: Node, keys: seq<string>, prefix: string)
    requires KidsFine(n) && '\n' !in prefix
    ensures Count(RenderKids(n, keys, prefix), '\n') == ShownAll(Visit(n, keys))
    decreases n, 0, |keys|
  {
    if |keys| > 0 {
      KidsLineCount(n, keys[1..], prefix);
      var rest := RenderKids(n, keys[1..], prefix);
      match Child(n, keys[0])
      case Some(k) =>
        KidLineCount(n, k, prefix, |keys| == 1, rest);
        ShownAllAppend([n.children[k]], Visit(n, keys[1..]));
        assert [n.children[k]][1..] == [];
      case None =>
        assert [] + Visit(n, keys[1..]) == Visit(n, keys[1..]);
        assert "" + rest == rest;
    }
  }

  /** One child's lines come before the rest of its siblings' lines. */
  lemma KidLineCount(n: Node, k: nat, prefix: string, last: bool, rest: string)
    requires KidsFine(n) && '\n' !in prefix && k < |n.children|
    ensures Count(Render(n.children[k], prefix, last) + rest, '\n') == Shown(n.children[k]) + Count(rest, '\n')
    decreases n, 0, 0
  {
    var c := n.children[k];
    RenderLineCount(c, prefix, last);
    CountAppend(Render(c, prefix, last), rest, '\n');
  }

  // The text depends only on which paths exist.

  /** A node has a child named `x` exactly when the one-segment path `[x]` reaches one. */
  lemma NameIffReach(t: Node, x: string)
    ensures x in Names(t.children) <==> Reaches(t, [x])
  {
    AtChild(t, x, []);
    assert [x] + [] == [x];
  }

  lemma SameChildNames(t1: Node, t2: Node)
    requires WellFormed(t1) && WellFormed(t2)
    requires forall q :: Reaches(t1, q) <==> Reaches(t2, q)
    ensures multiset(Names(t1.children)) == multiset(Names(t2.children))
  {
    forall x
      ensures x in Names(t1.children) <==> x in Names(t2.children)
    {
      NameIffReach(t1, x);
      NameIffReach(t2, x);
    }
    DistinctSameElements(Names(t1.children), Names(t2.children));
  }

  /**
    Two well-formed trees with the same root name and the same paths render
    identically: file flags and the order children were inserted in never
    show in the text.
  */
  lemma {:induction false} RenderSameReach(t1: Node, t2: Node, prefix: string, last: bool)
    requires WellFormed(t1) && WellFormed(t2) && t1.name == t2.name
    requires forall q :: Reaches(t1, q) <==> Reaches(t2, q)
    ensures Render(t1, prefix, last) == Render(t2, prefix, last)
    decreases t1, 1
  {
    SameChildNames(t1, t2);
    SortDeterminedByMultiset(Names(t1.children), Names(t2.children));
    KidsSameReach(t1, t2, Keys(t1), ChildPrefix(t1, prefix, last));
  }

  lemma {:induction false} KidsSameReach(t1: Node, t2: Node, keys: seq<string>, prefix: string)
    requires WellFormed(t1) && WellFormed(t2)
    requires forall q :: Reaches(t1, q) <==> Reaches(t2, q)
    ensures RenderKids(t1, keys, prefix) == RenderKids(t2, keys, prefix)
    decreases t1, 0, |keys|
  {
    if |keys| > 0 {
      var x := keys[0];
      AtChild(t1, x, []);
      AtChild(t2, x, []);
      assert Reaches(t1, [x] + []) <==> Reaches(t2, [x] + []);
      if Child(t1, x).Some? {
        var c1 := t1.children[Child(t1, x).value];
        var c2 := t2.children[Child(t2, x).value];
        forall qs
          ensures Reaches(c1, qs) <==> Reaches(c2, qs)
        {
          AtChild(t1, x, qs);
          AtChild(t2, x, qs);
          assert Reaches(t1, [x] + qs) <==> Reaches(t2, [x] + qs);
        }
        RenderSameReach(c1, c2, prefix, |keys| == 1);
      }
      KidsSameReach(t1, t2, keys[1..], prefix);
    }
  }

  /**
    The tree text depends only on the set of input paths: permuting the file
    list, or repeating a file, leaves it unchanged.
  */
  lemma TreeTextDependsOnPathSet(paths1: seq<seq<string>>, paths2: seq<seq<string>>)
    requires forall p :: p in paths1 <==> p in paths2
    ensures TreeText(Build(paths1)) == TreeText(Build(paths2))
  {
    BuildFromWellFormed(Root, paths1);
    BuildFromWellFormed(Root, paths2);
    forall q
      ensures Reaches(Build(paths1), q) <==> Reaches(Build(paths2), q)
    {
      BuildAt(paths1, q);
      BuildAt(paths2, q);
      if i :| 0 <= i < |paths1| && q <= paths1[i] {
        assert paths1[i] in paths2;
        var j :| 0 <= j < |paths2| && paths2[j] == paths1[i];
      }
      if j :| 0 <= j < |paths2| && q <= paths2[j] {
        assert paths2[j] in paths1;
        var i :| 0 <= i < |paths1| && paths1[i] == paths2[j];
      }
    }
    RenderSameReach(Build(paths1), Build(paths2), "", true);
  }

  /**
    The paths `p/f`, `p/g` and `q/h`, with `p` and `q` different and `f` and `g`
    different, build the root with the directory `p` (shared by its two files)
    and then the directory `q`.
  */
  lemma ThreeFileBuild(p: string, f: string, g: string, q: string, h: string)
    requires p != q && f != g
    ensures Build([[p, f], [p, g], [q, h]]) ==
      Node(RootName, false, [
        Node(p, false, [Node(f, true, []), Node(g, true, [])]),
        Node(q, false, [Node(h, true, [])])])
  {
    var x, y := Node(f, true, []), Node(g, true, []);
    var a1 := Node(p, false, [x]);
    var t1 := Node(RootName, false, [a1]);
    var t2 := Node(RootName, false, [Node(p, false, [x, y])]);
    assert Child(Root, p) == None;
    InsertNewPair(Root, p, f);
    assert [] + [a1] == [a1];
    InsertSecondFile(t1, p, f, g);
    assert Child(t2, q) == None by {
      assert Names(t2.children) == [p];
    }
    InsertNewPair(t2, q, h);
    BuildFromThree(Root, [p, f], [p, g], [q, h]);
  }

  /** A two-part path whose directory is new adds the directory holding just the file. */
  lemma InsertNewPair(n: Node, d: string, f: string)
    requires Child(n, d) == None
    ensures Insert(n, [d, f]) == n.(children := n.children + [Node(d, false, [Node(f, true, [])])])
  {
    var x := Node(f, true, []);
    assert Child(Node(d, false, []), f) == None;
    InsertFresh(Node(d, false, []), f, []);
    assert [f] + [] == [f] && [] + [x] == [x] && Insert(x, []) == x;
    InsertFresh(n, d, [f]);
    assert [d] + [f] == [d, f];
  }

  /** A second file in the only directory of the root is appended to that directory. */
  lemma InsertSecondFile(t: Node, d: string, f: string, g: string)
    requires t == Node(RootName, false, [Node(d, false, [Node(f, true, [])])]) && f != g
    ensures Insert(t, [d, g]) ==
      Node(RootName, false, [Node(d, false, [Node(f, true, []), Node(g, true, [])])])
  {
    var x, y := Node(f, true, []), Node(g, true, []);
    var a1 := Node(d, false, [x]);
    assert Names(t.children) == [d] && Names(a1.children) == [f];
    InsertFresh(a1, g, []);
    assert [g] + [] == [g] && [x] + [y] == [x, y] && Insert(y, []) == y;
    InsertExisting(t, 0, d, [g]);
    assert [d] + [g] == [d, g];
  }

  /** Building from three paths inserts them one after another. */
  lemma BuildFromThree(n: Node, u: seq<string>, v: seq<string>, w: seq<string>)
    ensures BuildFrom(n, [u, v, w]) == Insert(Insert(Insert(n, u), v), w)
  {
    var paths := [u, v, w];
    assert paths[1..] == [v, w] && paths[1..][1..] == [w] && paths[1..][1..][1..] == [];
    var n1 := Insert(n, u);
    var n2 := Insert(n1, v);
    assert BuildFrom(n, paths) == BuildFrom(n1, [v, w]);
    assert BuildFrom(n1, [v, w]) == BuildFrom(n2, [w]);
    assert BuildFrom(n2, [w]) == BuildFrom(Insert(n2, w), []);
  }

  /** A file is drawn as one line: the prefix, its branch glyph and its name. */
  lemma LeafLine(f: string, prefix: string, last: bool)
    requires f != RootName
    ensures Render(Node(f, true, []), prefix, last) ==
      prefix + (if last then LastBranch else MidBranch) + f + "\n"
  {
    var x := Node(f, true, []);
    assert Keys(x) == [];
    assert RenderKids(x, [], ChildPrefix(x, prefix, last)) == "";
  }

  /** The root `"."` prints no line of its own: the tree text is its children's, flush left. */
  lemma RootText(t: Node)
    requires t.name == RootName
    ensures TreeText(t) == RenderKids(t, Keys(t), "")
  {
    var kids := RenderKids(t, Keys(t), "");
    assert "" + kids == kids;
  }

  /** A single child is rendered as the last one. */
  lemma KidsOne(n: Node, prefix: string)
    requires |n.children| == 1
    ensures RenderKids(n, Names(n.children), prefix) == Render(n.children[0], prefix, true)
  {
    var keys := Names(n.children);
    assert keys == [n.children[0].name];
    assert Child(n, keys[0]) == Some(0);
    assert RenderKids(n, keys[1..], prefix) == "";
  }

  /** Two differently named children, taken in stored order: the first is a middle entry, the second the last. */
  lemma KidsTwo(n: Node, prefix: string)
    requires |n.children| == 2 && n.children[0].name != n.children[1].name
    ensures RenderKids(n, Names(n.children), prefix) ==
      Render(n.children[0], prefix, false) + Render(n.children[1], prefix, true)
  {
    var keys := Names(n.children);
    assert keys == [n.children[0].name, n.children[1].name];
    assert Child(n, keys[0]) == Some(0) && Child(n, keys[1]) == Some(1);
    assert keys[1..][1..] == [];
    assert RenderKids(n, keys[1..], prefix) == Render(n.children[1], prefix, true) + RenderKids(n, keys[1..][1..], prefix);
  }

  /** A top-level directory holding only the file `f`, drawn as the last entry. */
  lemma OneFileDir(d: string, f: string)
    requires d != RootName && f != RootName
    ensures Render(Node(d, false, [Node(f, true, [])]), "", true) ==
      LastBranch + d + "\n" + (LastPad + LastBranch + f + "\n")
  {
    var n := Node(d, false, [Node(f, true, [])]);
    assert Keys(n) == Names(n.children) == [f];
    assert ChildPrefix(n, "", true) == LastPad by {
      assert "" + LastPad == LastPad;
    }
    assert Head(n, "", true) == LastBranch + d + "\n" by {
      assert "" + LastBranch == LastBranch;
    }
    KidsOne(n, LastPad);
    LeafLine(f, LastPad, true);
  }

  /** Two children already in name order are visited in stored order. */
  lemma KeysOfTwo(n: Node)
    requires |n.children| == 2 && Less(n.children[0].name, n.children[1].name)
    ensures Keys(n) == Names(n.children)
  {
    var f, g := n.children[0].name, n.children[1].name;
    LessAsymmetric(f, g);
    assert Names(n.children) == [f, g];
    assert Sorted([f, g]);
    SortedUnique(Keys(n), [f, g]);
  }

  /** A directory holding the files `f` and `g` (with `f` before `g`), drawn as a middle entry at the top. */
  lemma TwoFileDir(d: string, f: string, g: string)
    requires d != RootName && f != RootName && g != RootName
    requires Less(f, g)
    ensures Render(Node(d, false, [Node(f, true, []), Node(g, true, [])]), "", false) ==
      MidBranch + d + "\n" + (MidPad + MidBranch + f + "\n") + (MidPad + LastBranch + g + "\n")
  {
    var n := Node(d, false, [Node(f, true, []), Node(g, true, [])]);
    LessIrreflexive(f);
    KeysOfTwo(n);
    assert ChildPrefix(n, "", false) == MidPad by {
      assert "" + MidPad == MidPad;
    }
    assert Head(n, "", false) == MidBranch + d + "\n" by {
      assert "" + MidBranch == MidBranch;
    }
    KidsTwo(n, MidPad);
    LeafLine(f, MidPad, false);
    LeafLine(g, MidPad, true);
  }

  /**
    The root with a directory `p` holding the files `f` and `g`, and a later
    directory `q` holding the file `h`: `p` is drawn first with its files
    indented by a bar, then `q` with its file indented by blanks.
  */
  lemma TwoDirText(p: string, f: string, g: string, q: string, h: string)
    requires p != RootName && f != RootName && g != RootName && q != RootName && h != RootName
    requires Less(p, q) && Less(f, g)
    ensures TreeText(Node(RootName, false, [
        Node(p, false, [Node(f, true, []), Node(g, true, [])]),
        Node(q, false, [Node(h, true, [])])])) ==
      (MidBranch + p + "\n" + (MidPad + MidBranch + f + "\n") + (MidPad + LastBranch + g + "\n")) +
      (LastBranch + q + "\n" + (LastPad + LastBranch + h + "\n"))
  {
    var a := Node(p, false, [Node(f, true, []), Node(g, true, [])]);
    var b := Node(q, false, [Node(h, true, [])]);
    var t := Node(RootName, false, [a, b]);
    LessIrreflexive(p);
    KeysOfTwo(t);
    KidsTwo(t, "");
    OneFileDir(q, h);
    TwoFileDir(p, f, g);
    RootText(t);
  }

  lemma ExampleNames(p: string, f: string, g: string, q: string, h: string)
    requires p == "a" && f == "x.go" && g == "y.go" && q == "b" && h == "z.go"
    ensures Less(p, q) && Less(f, g)
    ensures p != RootName && f != RootName && g != RootName && q != RootName && h != RootName
  {
    assert f[0] < g[0] && p[0] < q[0];
  }

  /**
    Three files `a/x.go`, `a/y.go` and `b/z.go`: the directories `a` and `b`
    are shared by their files and printed in name order, each with its files
    below it.
  */
  lemma ThreeFileExample(paths: seq<seq<string>>)
    requires paths == [["a", "x.go"], ["a", "y.go"], ["b", "z.go"]]
    ensures TreeText(Build(paths)) ==
      (MidBranch + "a" + "\n" + (MidPad + MidBranch + "x.go" + "\n") + (MidPad + LastBranch + "y.go" + "\n")) +
      (LastBranch + "b" + "\n" + (LastPad + LastBranch + "z.go" + "\n"))
  {
    var p, f, g, q, h := paths[0][0], paths[0][1], paths[1][1], paths[2][0], paths[2][1];
    assert paths == [[p, f], [p, g], [q, h]];
    ExampleNames(p, f, g, q, h);
    ThreeFileBuild(p, f, g, q, h);
    TwoDirText(p, f, g, q, h);
  }
}

=== FILE: report.dfy ===
/**
  The pure part of `main` (main.go:66-123): the per-file blocks appended
  after the tree, the three counters, the size tier of the summary, and the
  buffer handed to the clipboard or to the section splitter.
*/
module Report {
  import opened Seqs
  import opened Options
  import opened Lines
  import opened Sections
  import opened Tree
  import opened Render

  /**
    One matched file: its path relative to the scan directory as segments
    (for the tree), the path printed in its header (`filepath.Join(".", rel)`),
    and its bytes, or `None` when reading it failed.
  */
  datatype FileEntry = FileEntry(segments: seq<string>, shown: string, data: Option<string>)

  /** `fileCount`, `lineCount` and `charCount` (main.go:37). */
  datatype Counters = Counters(files: nat, lines: nat, chars: nat)

  /** The header line written for every file (main.go:80). */
  function Header(shown: string): string {
    "====" + shown + "====\n"
  }

  /**
    The text written for one file (main.go:80-88): the header, even when the
    file cannot be read, then the bytes, then one newline when they are not
    empty and do not already end in one. Every block therefore ends in a
    newline, and the file's bytes follow the header intact.
  */
  function Block(e: FileEntry): (b: string)
    ensures Header(e.shown) <= b && |b| > 0 && b[|b| - 1] == '\n'
    ensures e.data.None? ==> b == Header(e.shown)
    ensures e.data.Some? ==> Header(e.shown) + e.data.value <= b
    ensures e.data.Some? ==>
      (|b| == |Header(e.shown)| + |e.data.value| + 1 <==> e.data.value != [] && e.data.value[|e.data.value| - 1] != '\n')
    ensures e.data.Some? ==> |b| <= |Header(e.shown)| + |e.data.value| + 1
  {
    Header(e.shown) +
      match e.data
      case None => ""
      case Some(d) => d + (if |d| > 0 && d[|d| - 1] != '\n' then "\n" else "")
  }

  /** The blocks of all files, in the order of the file list (main.go:78-92). */
  function Blocks(entries: seq<FileEntry>): string
    decreases |entries|
  {
    if |entries| == 0 then "" else Block(entries[0]) + Blocks(entries[1..])
  }

  /** The blocks of two runs of files, one after the other, are the blocks of the joined run. */
  lemma {:induction false} BlocksAppend(a: seq<FileEntry>, b: seq<FileEntry>)
    ensures Blocks(a + b) == Blocks(a) + Blocks(b)
    decreases |a|
  {
    if |a| == 0 {
      assert a + b == b;
    } else {
      BlocksAppend(a[1..], b);
      assert (a + b)[0] == a[0] && (a + b)[1..] == a[1..] + b;
      var x, y, z := Block(a[0]), Blocks(a[1..]), Blocks(b);
      assert x + (y + z) == (x + y) + z;
    }
  }

  /** Every file's block sits, whole, between the blocks of the files before it and those after it. */
  lemma BlocksInOrder(entries: seq<FileEntry>, i: int)
    requires 0 <= i < |entries|
    ensures Blocks(entries) == Blocks(entries[..i]) + Block(entries[i]) + Blocks(entries[i + 1..])
  {
    assert entries == entries[..i] + entries[i..];
    BlocksAppend(entries[..i], entries[i..]);
    assert entries[i..][0] == entries[i] && entries[i..][1..] == entries[i + 1..];
    var x, y, z := Blocks(entries[..i]), Block(entries[i]), Blocks(entries[i + 1..]);
    assert x + (y + z) == (x + y) + z;
  }

  /** One iteration's counter update (main.go:89-91); an unreadable file is skipped (main.go:82-84). */
  function Tally(c: Counters, e: FileEntry): Counters {
    match e.data
    case None => c
    case Some(d) => Counters(c.files + 1, c.lines + Count(d, '\n'), c.chars + |d|)
  }

  /** The counters after the loop of main.go:78-92. */
  function Totals(entries: seq<FileEntry>): Counters
    decreases |entries|
  {
    if |entries| == 0 then Counters(0, 0, 0)
    else Tally(Totals(entries[..|entries| - 1]), entries[|entries| - 1])
  }

  /** The contents of the files that could be read, in order. */
  function Contents(entries: seq<FileEntry>): seq<string>
    decreases |entries|
  {
    if |entries| == 0 then []
    else
      var rest := Contents(entries[..|entries| - 1]);
      match entries[|entries| - 1].data
      case None => rest
      case Some(d) => rest + [d]
  }

  /** All strings of `ds` one after another. */
  function Concat(ds: seq<string>): string
    decreases |ds|
  {
    if |ds| == 0 then "" else Concat(ds[..|ds| - 1]) + ds[|ds| - 1]
  }

  /**
    The counters measure the readable files' contents taken together: their
    number, the newlines in them, and their total length in bytes.
  */
  lemma {:induction false} TotalsMeasureContents(entries: seq<FileEntry>)
    ensures Totals(entries) ==
      Counters(|Contents(entries)|, Count(Concat(Contents(entries)), '\n'), |Concat(Contents(entries))|)
    decreases |entries|
  {
    if |entries| > 0 {
      var front := entries[..|entries| - 1];
      TotalsMeasureContents(front);
      match entries[|entries| - 1].data
      case None =>
      case Some(d) =>
        var ds := Contents(front) + [d];
        assert ds[..|ds| - 1] == Contents(front);
        CountAppend(Concat(Contents(front)), d, '\n');
    }
  }

  /** The advisory colour of the summary line (main.go:101-109). */
  datatype Tier = Green | Yellow | Red

  /** Upper bound of the green tier, in characters. */
  const GreenLimit: int := 20000
  /** Upper bound of the yellow tier, in characters. */
  const YellowLimit: int := 50000

  /** The tier of a character count: green up to 20000, yellow up to 50000, red above. */
  function Classify(chars: int): (t: Tier)
    ensures t == Green <==> chars <= 20000
    ensures t == Yellow <==> 20000 < chars <= 50000
    ensures t == Red <==> 50000 < chars
  {
    if chars <= GreenLimit then Green
    else if chars <= YellowLimit then Yellow
    else Red
  }

  /** How strong a warning a tier is: green, then yellow, then red. */
  function Severity(t: Tier): nat {
    match t
    case Green => 0
    case Yellow => 1
    case Red => 2
  }

  /**
    More characters never give a milder tier: the thresholds of main.go:103
    and main.go:105 are checked in ascending order, so the tiers are nested.
  */
  lemma ClassifyMonotone(a: int, b: int)
    requires a <= b
    ensures Severity(Classify(a)) <= Severity(Classify(b))
  {
  }

  /** The segment lists `buildTree` receives, one per file. */
  function Paths(entries: seq<FileEntry>): seq<seq<string>> {
    seq(|entries|, i requires 0 <= i < |entries| => entries[i].segments)
  }

  /**
    The buffer `main` copies or splits (main.go:67-94): the tree text, a
    newline pair, then one block per file.
  */
  function Output(entries: seq<FileEntry>): string {
    TreeText(Build(Paths(entries))) + "\n\n" + Blocks(entries)
  }

  /**
    Splitting the assembled buffer at `chatgptSectionSize` always yields a
    first section, so `sections[0]` (main.go:123) is in range: with no file the
    buffer is just two newlines, and with a file it holds a header.
  */
  lemma FirstSectionExists(entries: seq<FileEntry>)
    ensures SplitIntoSections(Output(entries), ChatGptSectionSize) != []
  {
    var out := Output(entries);
    var tree := TreeText(Build(Paths(entries)));
    NoSectionsIffOnlyNewlines(out, ChatGptSectionSize);
    if |entries| == 0 {
      assert Paths(entries) == [];
      assert Keys(Root) == [];
      assert tree == "";
      assert |out| == 2;
    } else {
      var b := Block(entries[0]);
      assert Blocks(entries) == b + Blocks(entries[1..]);
      assert b[0] == '=';
      assert out[|tree| + 2] == '=';
    }
  }

  /** The blocks of any file list are empty or end in a newline. */
  lemma {:induction false} BlocksEndInNewline(entries: seq<FileEntry>)
    ensures Blocks(entries) == "" || Blocks(entries)[|Blocks(entries)| - 1] == '\n'
    decreases |entries|
  {
    if |entries| > 0 {
      BlocksEndInNewline(entries[1..]);
      var b, rest := Block(entries[0]), Blocks(entries[1..]);
      assert Blocks(entries) == b + rest;
      if rest == "" {
        assert b + rest == b;
      }
    }
  }

  /**
    The buffer `main` builds always ends in a newline, so it always has an
    empty last line: the precondition of `SectionsRoundTrip` never holds for
    it, and `SectionsKeepLines` is what speaks about the sections it is cut
    into.
  */
  lemma OutputEndsInNewline(entries: seq<FileEntry>)
    ensures |Output(entries)| > 0 && Output(entries)[|Output(entries)| - 1] == '\n'
    ensures !NoBlankLine(Output(entries))
  {
    var head, blocks := TreeText(Build(Paths(entries))) + "\n\n", Blocks(entries);
    BlocksEndInNewline(entries);
    assert head[|head| - 1] == '\n';
    assert Output(entries) == head + blocks;
    LastOfAppend(head, blocks);
  }

  /** Two files are tallied in order, starting from zero. */
  lemma TotalsPair(a: FileEntry, b: FileEntry)
    ensures Totals([a, b]) == Tally(Tally(Counters(0, 0, 0), a), b)
  {
    assert [a][..0] == [];
    assert Totals([a]) == Tally(Counters(0, 0, 0), a);
    assert [a, b][..1] == [a];
  }

  /**
    The summary counters for two files, `"ab\n"` and `"cd"`: two files, one
    newline, five characters; the second block gets a newline appended.
  */
  lemma TwoFileSummary(entries: seq<FileEntry>)
    requires entries == [FileEntry(["ab.txt"], "ab.txt", Some("ab\n")), FileEntry(["cd.txt"], "cd.txt", Some("cd"))]
    ensures Totals(entries) == Counters(2, 1, 5) && Block(entries[1]) == "====cd.txt====\ncd\n"
  {
    assert entries == [entries[0], entries[1]];
    TotalsPair(entries[0], entries[1]);
    assert Count("ab\n", '\n') == 1 by {
      assert "ab\n"[1..] == "b\n" && "b\n"[1..] == "\n" && "\n"[1..] == "";
    }
    assert Count("cd", '\n') == 0 by {
      assert "cd"[1..] == "d" && "d"[1..] == "";
    }
    assert Block(entries[1]) == Header("cd.txt") + ("cd" + "\n");
  }
}

=== FILE: sections.dfy ===
/**
  `splitIntoSections` (main.go:140-162): cutting the assembled output into
  sections of bounded length, only ever between lines.
*/
module Sections {
  import opened Seqs
  import opened Lines

  /** `chatgptSectionSize` (main.go:16): the section bound used in ChatGPT mode. */
  const ChatGptSectionSize: int := 20000

  /** `s` holds at least one character that is not a newline. */
  predicate HasText(s: string) {
    exists i :: 0 <= i < |s| && s[i] != '\n'
  }

  /** `s` is made of newlines only (the empty string included). */
  predicate OnlyNewlines(s: string) {
    forall i :: 0 <= i < |s| ==> s[i] == '\n'
  }

  /** A section the splitter may emit: some text, and within the bound unless it is one unsplittable line. */
  predicate SectionOk(s: string, maxLen: int) {
    HasText(s) && (|s| <= maxLen || '\n' !in s)
  }

  /** The splitter's loop state: the sections closed so far and the builder `buf`. */
  datatype Acc = Acc(sections: seq<string>, buf: string)

  /** Every closed section, and the builder when it is not empty, is a section the splitter may emit. */
  predicate Good(acc: Acc, maxLen: int) {
    && (forall i :: 0 <= i < |acc.sections| ==> SectionOk(acc.sections[i], maxLen))
    && (acc.buf == "" || SectionOk(acc.buf, maxLen))
  }

  /**
    One pass of the loop body (main.go:148-156): close the builder if the line
    and its separator would overflow it, then add a separator only when the
    builder is not empty, then the line.
  */
  function Feed(acc: Acc, line: string, maxLen: int): Acc {
    var flush := |acc.buf| + |line| + 1 > maxLen && |acc.buf| > 0;
    var sections := if flush then acc.sections + [acc.buf] else acc.sections;
    var buf := if flush then "" else acc.buf;
    var buf := if |buf| > 0 then buf + "\n" else buf;
    Acc(sections, buf + line)
  }

  lemma FeedGood(acc: Acc, line: string, maxLen: int)
    requires Good(acc, maxLen) && '\n' !in line
    ensures Good(Feed(acc, line, maxLen), maxLen)
  {
    var r := Feed(acc, line, maxLen);
    if r.buf != "" {
      if |acc.buf| + |line| + 1 > maxLen || |acc.buf| == 0 {
        assert r.buf == line;
        assert line[0] != '\n';
      } else {
        assert r.buf == acc.buf + "\n" + line;
        var k :| 0 <= k < |acc.buf| && acc.buf[k] != '\n';
        assert r.buf[k] != '\n';
      }
    }
  }

  /** The loop over all lines (main.go:147-157). */
  function FeedAll(acc: Acc, lines: seq<string>, maxLen: int): Acc
    decreases |lines|
  {
    if |lines| == 0 then acc else FeedAll(Feed(acc, lines[0], maxLen), lines[1..], maxLen)
  }

  /** The loop keeps every closed section, and the builder, emittable. */
  lemma {:induction false} FeedAllGood(acc: Acc, lines: seq<string>, maxLen: int)
    requires Good(acc, maxLen) && NoNewlines(lines)
    ensures Good(FeedAll(acc, lines, maxLen), maxLen)
    decreases |lines|
  {
    if |lines| > 0 {
      FeedGood(acc, lines[0], maxLen);
      FeedAllGood(Feed(acc, lines[0], maxLen), lines[1..], maxLen);
    }
  }

  /** After the loop: a non-empty builder becomes the last section (main.go:158-160). */
  function Finish(acc: Acc): seq<string> {
    if |acc.buf| > 0 then acc.sections + [acc.buf] else acc.sections
  }

  /**
    `splitIntoSections(text, maxLen)`. A text within the bound is returned
    whole; otherwise no section is empty, or even newlines only, and every
    section is within the bound unless it is a single over-long line.
  */
  function SplitIntoSections(text: string, maxLen: int): (sections: seq<string>)
    ensures |text| <= maxLen ==> sections == [text]
    ensures |text| > maxLen ==> forall i :: 0 <= i < |sections| ==> HasText(sections[i])
    ensures forall i :: 0 <= i < |sections| ==> |sections[i]| <= maxLen || '\n' !in sections[i]
    ensures Packed(sections, maxLen)
  {
    if |text| <= maxLen then [text]
    else
      SplitHasNoNewlines(text);
      FeedAllGood(Acc([], ""), Split(text), maxLen);
      FeedAllPacked(Acc([], ""), Split(text), maxLen);
      FinishPacked(FeedAll(Acc([], ""), Split(text), maxLen), maxLen);
      Finish(FeedAll(Acc([], ""), Split(text), maxLen))
  }

  // Packing: a section is closed only when the next line would overflow it.

  /**
    Each section but the last is full: it, a separator and the first line of
    the next section would not fit within the bound together.
  */
  predicate Packed(secs: seq<string>, maxLen: int) {
    forall i :: 0 <= i < |secs| - 1 ==> Full(secs[i], secs[i + 1], maxLen)
  }

  /** Section `s` could not take a separator and the first line of `next`. */
  predicate Full(s: string, next: string, maxLen: int) {
    |s| + 1 + |Split(next)[0]| > maxLen
  }

  /**
    The loop's packing invariant: the closed sections are packed, and the last
    one could not take a separator and the builder's first line (nothing, when
    the builder is empty).
  */
  predicate PackedAcc(acc: Acc, maxLen: int) {
    && Packed(acc.sections, maxLen)
    && (|acc.sections| > 0 ==>
          |acc.sections[|acc.sections| - 1]| + 1 + (if acc.buf == "" then 0 else |Split(acc.buf)[0]|) > maxLen)
  }

  /** Appending a section that the last one could not take keeps the list packed. */
  lemma PackedSnoc(secs: seq<string>, b: string, maxLen: int)
    requires Packed(secs, maxLen)
    requires |secs| > 0 ==> Full(secs[|secs| - 1], b, maxLen)
    ensures Packed(secs + [b], maxLen)
  {
    var r := secs + [b];
    forall i | 0 <= i < |r| - 1
      ensures Full(r[i], r[i + 1], maxLen)
    {
      if i < |secs| - 1 {
        assert r[i] == secs[i] && r[i + 1] == secs[i + 1];
      } else {
        assert r[i] == secs[|secs| - 1] && r[i + 1] == b;
      }
    }
  }

  lemma FeedPacked(acc: Acc, line: string, maxLen: int)
    requires PackedAcc(acc, maxLen) && '\n' !in line
    ensures PackedAcc(Feed(acc, line, maxLen), maxLen)
  {
    var r := Feed(acc, line, maxLen);
    if |acc.buf| + |line| + 1 > maxLen && |acc.buf| > 0 {
      PackedSnoc(acc.sections, acc.buf, maxLen);
      assert r == Acc(acc.sections + [acc.buf], line);
      if line != "" {
        SplitLine(line);
      }
    } else if |acc.buf| > 0 {
      assert r == Acc(acc.sections, acc.buf + "\n" + line);
      SplitAppendLine(acc.buf, line);
      assert Split(r.buf)[0] == Split(acc.buf)[0];
    } else {
      assert r == Acc(acc.sections, line);
      if line != "" {
        SplitLine(line);
      }
    }
  }

  lemma {:induction false} FeedAllPacked(acc: Acc, lines: seq<string>, maxLen: int)
    requires PackedAcc(acc, maxLen) && NoNewlines(lines)
    ensures PackedAcc(FeedAll(acc, lines, maxLen), maxLen)
    decreases |lines|
  {
    if |lines| > 0 {
      FeedPacked(acc, lines[0], maxLen);
      assert NoNewlines(lines[1..]);
      FeedAllPacked(Feed(acc, lines[0], maxLen), lines[1..], maxLen);
    }
  }

  lemma FinishPacked(acc: Acc, maxLen: int)
    requires PackedAcc(acc, maxLen)
    ensures Packed(Finish(acc), maxLen)
  {
    if |acc.buf| > 0 {
      PackedSnoc(acc.sections, acc.buf, maxLen);
    }
  }

  /**
    Lines are merged into one section while they fit: two lines that fit
    together share a section, and a third line that would overflow it starts
    the next.
  */
  lemma PacksLines(a: string, b: string, c: string, maxLen: int)
    requires '\n' !in a && '\n' !in b && '\n' !in c && a != "" && c != ""
    requires |a| + 1 + |b| <= maxLen < |a| + 1 + |b| + 1 + |c|
    ensures SplitIntoSections(a + "\n" + b + "\n" + c, maxLen) == [a + "\n" + b, c]
  {
    var lines := [a, b, c];
    assert lines[1..] == [b, c] && lines[1..][1..] == [c] && lines[1..][1..][1..] == [];
    assert Join([c]) == c;
    assert Join([b, c]) == b + "\n" + c;
    assert Join(lines) == a + "\n" + (b + "\n" + c);
    assert a + "\n" + (b + "\n" + c) == a + "\n" + b + "\n" + c;
    SplitJoin(lines);
    var acc1 := Feed(Acc([], ""), a, maxLen);
    assert acc1 == Acc([], a);
    var acc2 := Feed(acc1, b, maxLen);
    assert acc2 == Acc([], a + "\n" + b);
    var acc3 := Feed(acc2, c, maxLen);
    assert acc3 == Acc([a + "\n" + b], c);
    assert FeedAll(acc3, lines[1..][1..][1..], maxLen) == acc3;
    assert FeedAll(acc2, lines[1..][1..], maxLen) == acc3;
    assert FeedAll(acc1, lines[1..], maxLen) == acc3;
    assert FeedAll(Acc([], ""), lines, maxLen) == acc3;
  }

  /** `"a\nb\ncd"` at bound 4 gives `["a\nb", "cd"]`: the first two lines share a section. */
  lemma PackExample(text: string)
    requires text == "a\nb\ncd"
    ensures SplitIntoSections(text, 4) == ["a\nb", "cd"]
  {
    assert text == "a" + "\n" + "b" + "\n" + "cd";
    PacksLines("a", "b", "cd", 4);
    assert "a" + "\n" + "b" == "a\nb";
  }

  // Which lines survive: the non-empty lines of the text, in order.

  /** The non-empty strings of `ls`, in order. */
  function Keep(ls: seq<string>): seq<string>
    decreases |ls|
  {
    if |ls| == 0 then [] else (if ls[0] == "" then [] else [ls[0]]) + Keep(ls[1..])
  }

  /** The lines of every section, one section after another. */
  function LinesOf(sections: seq<string>): seq<string>
    decreases |sections|
  {
    if |sections| == 0 then [] else Split(sections[0]) + LinesOf(sections[1..])
  }

  lemma {:induction false} KeepAppend(a: seq<string>, b: seq<string>)
    ensures Keep(a + b) == Keep(a) + Keep(b)
    decreases |a|
  {
    if |a| > 0 {
      KeepAppend(a[1..], b);
      assert (a + b)[0] == a[0];
      assert (a + b)[1..] == a[1..] + b;
      var h := if a[0] == "" then [] else [a[0]];
      calc {
        Keep(a + b);
        h + Keep(a[1..] + b);
        h + (Keep(a[1..]) + Keep(b));
        (h + Keep(a[1..])) + Keep(b);
      }
    } else {
      assert a + b == b;
    }
  }

  lemma {:induction false} LinesOfAppend(a: seq<string>, b: seq<string>)
    ensures LinesOf(a + b) == LinesOf(a) + LinesOf(b)
    decreases |a|
  {
    if |a| > 0 {
      LinesOfAppend(a[1..], b);
      assert (a + b)[0] == a[0];
      assert (a + b)[1..] == a[1..] + b;
      var x, y, z := Split(a[0]), LinesOf(a[1..]), LinesOf(b);
      assert LinesOf(a + b) == x + (y + z);
      assert x + (y + z) == (x + y) + z;
    } else {
      assert a + b == b;
    }
  }

  lemma LinesOfOne(s: string)
    ensures LinesOf([s]) == Split(s)
  {
    assert [s][1..] == [];
  }

  /** A text keeps no non-empty line exactly when it is newlines only. */
  lemma {:induction false} KeepSplitEmpty(s: string)
    ensures Keep(Split(s)) == [] <==> OnlyNewlines(s)
    decreases |s|
  {
    if |s| > 0 {
      KeepSplitEmpty(s[1..]);
      var rest := Split(s[1..]);
      if s[0] == '\n' {
        assert ([""] + rest)[1..] == rest;
        assert OnlyNewlines(s) <==> OnlyNewlines(s[1..]) by {
          if OnlyNewlines(s[1..]) {
            forall i | 0 <= i < |s|
              ensures s[i] == '\n'
            {
              if i > 0 {
                assert s[i] == s[1..][i - 1];
              }
            }
          }
        }
      } else {
        assert Split(s)[0] != "";
      }
    }
  }

  lemma FeedKeep(acc: Acc, line: string, maxLen: int)
    requires '\n' !in line
    ensures Keep(LinesOf(Finish(Feed(acc, line, maxLen)))) == Keep(LinesOf(Finish(acc))) + Keep([line])
  {
    var secs, buf := acc.sections, acc.buf;
    var r := Feed(acc, line, maxLen);
    var tail := if line == "" then [] else [line];
    assert Keep([line]) == Keep(tail) by {
      assert [line][1..] == [];
    }
    if line != "" {
      SplitLine(line);
      LinesOfOne(line);
    }
    assert LinesOf(if line == "" then [] else [line]) == tail;
    if |buf| + |line| + 1 > maxLen && |buf| > 0 {
      assert r.sections == secs + [buf];
      assert r.buf == "" + line == line;
      assert Finish(acc) == secs + [buf];
      assert Finish(r) == secs + [buf] + (if line == "" then [] else [line]);
      LinesOfAppend(secs + [buf], if line == "" then [] else [line]);
      KeepAppend(LinesOf(secs + [buf]), tail);
    } else if |buf| > 0 {
      assert Finish(r) == secs + [buf + "\n" + line];
      LinesOfAppend(secs, [buf + "\n" + line]);
      LinesOfAppend(secs, [buf]);
      LinesOfOne(buf + "\n" + line);
      LinesOfOne(buf);
      SplitAppendLine(buf, line);
      KeepAppend(LinesOf(secs) + Split(buf), [line]);
      assert LinesOf(secs) + Split(buf) + [line] == LinesOf(secs) + (Split(buf) + [line]);
    } else {
      assert r.sections == secs;
      assert r.buf == "" + line == line;
      assert Finish(acc) == secs;
      assert Finish(r) == secs + (if line == "" then [] else [line]);
      LinesOfAppend(secs, if line == "" then [] else [line]);
      KeepAppend(LinesOf(secs), tail);
    }
  }

  lemma {:induction false} FeedAllKeep(acc: Acc, lines: seq<string>, maxLen: int)
    requires NoNewlines(lines)
    ensures Keep(LinesOf(Finish(FeedAll(acc, lines, maxLen)))) == Keep(LinesOf(Finish(acc))) + Keep(lines)
    decreases |lines|
  {
    if |lines| > 0 {
      assert NoNewlines(lines[1..]);
      KeepStep(acc, lines, maxLen);
      FeedAllKeep(Feed(acc, lines[0], maxLen), lines[1..], maxLen);
    } else {
      assert Keep(LinesOf(Finish(acc))) + [] == Keep(LinesOf(Finish(acc)));
    }
  }

  /** One turn of the loop, in the terms of `FeedAllKeep`. */
  lemma KeepStep(acc: Acc, lines: seq<string>, maxLen: int)
    requires NoNewlines(lines) && |lines| > 0
    ensures Keep(LinesOf(Finish(acc))) + Keep(lines) ==
      Keep(LinesOf(Finish(Feed(acc, lines[0], maxLen)))) + Keep(lines[1..])
  {
    var before := Keep(LinesOf(Finish(acc)));
    var first, rest := Keep([lines[0]]), Keep(lines[1..]);
    FeedKeep(acc, lines[0], maxLen);
    KeepCons(lines);
    AppendAssoc(before, first, rest);
  }

  lemma KeepCons(lines: seq<string>)
    requires |lines| > 0
    ensures Keep(lines) == Keep([lines[0]]) + Keep(lines[1..])
  {
    KeepAppend([lines[0]], lines[1..]);
    assert lines == [lines[0]] + lines[1..];
  }

  /**
    Non-empty lines are neither lost, duplicated nor reordered: reading the
    sections' lines in order and skipping empty ones gives exactly the
    non-empty lines of the text. Only empty lines can go missing.
  */
  lemma SectionsKeepLines(text: string, maxLen: int)
    ensures Keep(LinesOf(SplitIntoSections(text, maxLen))) == Keep(Split(text))
  {
    if |text| <= maxLen {
      LinesOfOne(text);
    } else {
      SplitHasNoNewlines(text);
      FeedAllKeep(Acc([], ""), Split(text), maxLen);
    }
  }

  // Which lines are lost: sections are runs of whole lines, and only the
  // empty lines between them, or before the first or after the last, vanish.

  /** `k` empty lines. */
  function Blanks(k: nat): (r: seq<string>)
    ensures |r| == k && forall i :: 0 <= i < k ==> r[i] == ""
  {
    if k == 0 then [] else Blanks(k - 1) + [""]
  }

  /**
    The line list that `ds[0]` empty lines, the lines of `secs[0]`, `ds[1]`
    empty lines, the lines of `secs[1]`, and so on make, ending with
    `ds[|secs|]` empty lines.
  */
  function Weave(ds: seq<nat>, secs: seq<string>): seq<string>
    requires |ds| == |secs| + 1
    decreases |secs|
  {
    if |secs| == 0 then Blanks(ds[0])
    else Blanks(ds[0]) + Split(secs[0]) + Weave(ds[1..], secs[1..])
  }

  /** One more section at the end, followed by `d` empty lines. */
  lemma {:induction false} WeaveSnoc(ds: seq<nat>, secs: seq<string>, y: string, d: nat)
    requires |ds| == |secs| + 1
    ensures Weave(ds + [d], secs + [y]) == Weave(ds, secs) + Split(y) + Blanks(d)
    decreases |secs|
  {
    var ds', secs' := ds + [d], secs + [y];
    assert ds'[1..] == ds[1..] + [d];
    if |secs| == 0 {
      assert secs'[1..] == [];
      assert Weave(ds'[1..], secs'[1..]) == Blanks(d);
    } else {
      assert secs'[1..] == secs[1..] + [y];
      WeaveSnoc(ds[1..], secs[1..], y, d);
      var x, w, t := Blanks(ds[0]) + Split(secs[0]), Weave(ds[1..], secs[1..]), Split(y) + Blanks(d);
      assert Weave(ds', secs') == x + (w + Split(y) + Blanks(d));
      assert w + Split(y) + Blanks(d) == w + t;
      AppendAssoc(x, w, t);
      assert Weave(ds, secs) + Split(y) + Blanks(d) == (x + w) + t;
    }
  }

  /** One more empty line at the end. */
  lemma WeaveBlank(ds: seq<nat>, secs: seq<string>)
    requires |ds| == |secs| + 1
    ensures Weave(ds[|ds| - 1 := ds[|ds| - 1] + 1], secs) == Weave(ds, secs) + [""]
  {
    var n := |ds| - 1;
    var d := ds[n];
    if |secs| == 0 {
      assert Blanks(d + 1) == Blanks(d) + [""];
    } else {
      var front, last := secs[..|secs| - 1], secs[|secs| - 1];
      assert secs == front + [last];
      assert ds == ds[..n] + [d];
      assert ds[n := d + 1] == ds[..n] + [d + 1];
      WeaveSnoc(ds[..n], front, last, d);
      WeaveSnoc(ds[..n], front, last, d + 1);
      assert Blanks(d + 1) == Blanks(d) + [""];
    }
  }

  /** A new non-empty line starts a new piece. */
  lemma WeaveAddLine(ds: seq<nat>, secs: seq<string>, line: string)
    requires |ds| == |secs| + 1 && '\n' !in line && line != ""
    ensures Weave(ds + [0], secs + [line]) == Weave(ds, secs) + [line]
  {
    WeaveSnoc(ds, secs, line, 0);
    SplitLine(line);
    assert Blanks(0) == [];
  }

  /** A line added to the last piece, with no empty line after it, extends the woven lines by that line. */
  lemma WeaveExtendLast(ds: seq<nat>, secs: seq<string>, b: string, line: string)
    requires |ds| == |secs| + 2 && ds[|ds| - 1] == 0 && '\n' !in line
    ensures Weave(ds, secs + [b + "\n" + line]) == Weave(ds, secs + [b]) + [line]
  {
    var n := |ds| - 1;
    assert ds == ds[..n] + [0];
    WeaveSnoc(ds[..n], secs, b, 0);
    WeaveSnoc(ds[..n], secs, b + "\n" + line, 0);
    SplitAppendLine(b, line);
    var w := Weave(ds[..n], secs);
    AppendAssoc(w, Split(b), [line]);
    assert Blanks(0) == [];
  }

  /**
    The loop invariant behind `SectionsAreLineRuns`: the lines read so far
    are the current pieces (closed sections and the builder) woven with runs
    of empty lines, and no empty line waits after a non-empty builder.
  */
  lemma FeedWeave(acc: Acc, line: string, maxLen: int, ds: seq<nat>) returns (ds': seq<nat>)
    requires '\n' !in line
    requires |ds| == |Finish(acc)| + 1 && (acc.buf != "" ==> ds[|ds| - 1] == 0)
    ensures var r := Feed(acc, line, maxLen);
      && |ds'| == |Finish(r)| + 1 && (r.buf != "" ==> ds'[|ds'| - 1] == 0)
      && Weave(ds', Finish(r)) == Weave(ds, Finish(acc)) + [line]
  {
    var r := Feed(acc, line, maxLen);
    var f := Finish(acc);
    if |acc.buf| > 0 && |acc.buf| + |line| + 1 > maxLen {
      assert r == Acc(acc.sections + [acc.buf], line);
      if line == "" {
        assert Finish(r) == f;
        ds' := ds[|ds| - 1 := ds[|ds| - 1] + 1];
        WeaveBlank(ds, f);
      } else {
        assert Finish(r) == f + [line];
        ds' := ds + [0];
        WeaveAddLine(ds, f, line);
      }
    } else if |acc.buf| > 0 {
      assert r == Acc(acc.sections, acc.buf + "\n" + line);
      assert f == acc.sections + [acc.buf] && Finish(r) == acc.sections + [acc.buf + "\n" + line];
      ds' := ds;
      WeaveExtendLast(ds, acc.sections, acc.buf, line);
    } else if line == "" {
      assert r == acc;
      ds' := ds[|ds| - 1 := ds[|ds| - 1] + 1];
      WeaveBlank(ds, f);
    } else {
      assert r == Acc(acc.sections, line);
      assert Finish(r) == f + [line];
      ds' := ds + [0];
      WeaveAddLine(ds, f, line);
    }
  }

  lemma {:induction false} FeedAllWeave(acc: Acc, lines: seq<string>, maxLen: int, ds: seq<nat>) returns (ds': seq<nat>)
    requires NoNewlines(lines)
    requires |ds| == |Finish(acc)| + 1 && (acc.buf != "" ==> ds[|ds| - 1] == 0)
    ensures var r := FeedAll(acc, lines, maxLen);
      |ds'| == |Finish(r)| + 1 && Weave(ds', Finish(r)) == Weave(ds, Finish(acc)) + lines
    decreases |lines|
  {
    if |lines| == 0 {
      ds' := ds;
    } else {
      var next, rest := Feed(acc, lines[0], maxLen), lines[1..];
      var mid := FeedWeave(acc, lines[0], maxLen, ds);
      assert NoNewlines(rest);
      ds' := FeedAllWeave(next, rest, maxLen, mid);
      assert FeedAll(acc, lines, maxLen) == FeedAll(next, rest, maxLen);
      var w := Weave(ds, Finish(acc));
      assert Weave(mid, Finish(next)) == w + [lines[0]];
      AppendAssoc(w, [lines[0]], rest);
      assert [lines[0]] + rest == lines;
    }
  }

  /**
    Each section is a run of whole, consecutive lines of the text, in order,
    empty lines inside it included. Between sections, and before the first
    or after the last, only runs of empty lines are dropped.
  */
  lemma SectionsAreLineRuns(text: string, maxLen: int)
    ensures var secs := SplitIntoSections(text, maxLen);
      exists ds :: |ds| == |secs| + 1 && Weave(ds, secs) == Split(text)
  {
    var secs := SplitIntoSections(text, maxLen);
    if |text| <= maxLen {
      var ds: seq<nat> := [0, 0];
      assert Weave(ds, secs) == [] + Split(text) + Weave([0], []);
      assert Weave(ds, secs) == Split(text);
    } else {
      SplitHasNoNewlines(text);
      var ds := FeedAllWeave(Acc([], ""), Split(text), maxLen, [0]);
      assert Weave([0], Finish(Acc([], ""))) == [];
      assert [] + Split(text) == Split(text);
      assert |ds| == |secs| + 1 && Weave(ds, secs) == Split(text);
    }
  }

  /**
    An empty line that fits stays inside its section: `a`, an empty line and
    `b` share the first section, and `c`, which would overflow it, starts the
    next.
  */
  lemma KeepsInnerEmptyLine(a: string, b: string, c: string, maxLen: int)
    requires '\n' !in a && '\n' !in b && '\n' !in c && a != "" && c != ""
    requires |a| + 2 + |b| <= maxLen < |a| + 2 + |b| + 1 + |c|
    ensures SplitIntoSections(a + "\n\n" + b + "\n" + c, maxLen) == [a + "\n\n" + b, c]
  {
    SplitWithEmptyLine(a, b, c);
    assert [a, ""] + [b, c] == [a, "", b, c];
    FeedsLeadingPair(a, [b, c], maxLen);
    var a1 := a + "\n" + "";
    assert a1 + "\n" + b == a + "\n\n" + b;
    FeedsTrailingPair(a1, b, c, maxLen);
  }

  /** A non-empty first line and an empty second line that fit start one section. */
  lemma FeedsLeadingPair(a: string, rest: seq<string>, maxLen: int)
    requires a != "" && |a| + 1 <= maxLen
    ensures FeedAll(Acc([], ""), [a, ""] + rest, maxLen) == FeedAll(Acc([], a + "\n" + ""), rest, maxLen)
  {
    var lines := [a, ""] + rest;
    assert lines[0] == a && lines[1..][0] == "" && lines[1..][1..] == rest;
    assert Feed(Acc([], ""), a, maxLen) == Acc([], a);
    assert Feed(Acc([], a), "", maxLen) == Acc([], a + "\n" + "");
  }

  /** With `b` fitting into the builder and `c` not, the builder gets `b` and `c` opens the next section. */
  lemma FeedsTrailingPair(buf: string, b: string, c: string, maxLen: int)
    requires buf != "" && |buf| + 1 + |b| <= maxLen < |buf| + 1 + |b| + 1 + |c|
    ensures FeedAll(Acc([], buf), [b, c], maxLen) == Acc([buf + "\n" + b], c)
  {
    var lines := [b, c];
    assert lines[1..] == [c] && lines[1..][1..] == [];
    var acc := Feed(Acc([], buf), b, maxLen);
    assert acc == Acc([], buf + "\n" + b);
    assert |buf + "\n" + b| == |buf| + 1 + |b|;
    var last := Feed(acc, c, maxLen);
    assert last == Acc([buf + "\n" + b], c);
    assert FeedAll(last, lines[1..][1..], maxLen) == last;
    assert FeedAll(acc, lines[1..], maxLen) == last;
  }

  lemma SplitWithEmptyLine(a: string, b: string, c: string)
    requires '\n' !in a && '\n' !in b && '\n' !in c
    ensures Split(a + "\n\n" + b + "\n" + c) == [a, "", b, c]
  {
    var lines := [a, "", b, c];
    assert lines[1..] == ["", b, c] && lines[1..][1..] == [b, c];
    assert lines[1..][1..][1..] == [c] && lines[1..][1..][1..][1..] == [];
    assert Join([c]) == c;
    assert Join([b, c]) == b + "\n" + c;
    assert Join(["", b, c]) == "" + "\n" + (b + "\n" + c);
    assert Join(lines) == a + "\n" + ("" + "\n" + (b + "\n" + c));
    assert a + "\n" + ("" + "\n" + (b + "\n" + c)) == a + "\n\n" + b + "\n" + c;
    SplitJoin(lines);
  }

  /** `"a\n\nb\ncc"` at bound 6 gives `["a\n\nb", "cc"]`. */
  lemma InnerEmptyLineExample(text: string)
    requires text == "a\n\nb\ncc"
    ensures SplitIntoSections(text, 6) == ["a\n\nb", "cc"]
  {
    assert text == "a" + "\n\n" + "b" + "\n" + "cc";
    KeepsInnerEmptyLine("a", "b", "cc", 6);
    assert "a" + "\n\n" + "b" == "a\n\nb";
  }

  /** No piece of the text's split is empty. */
  predicate NoEmptyLine(text: string) {
    forall i :: 0 <= i < |Split(text)| ==> Split(text)[i] != ""
  }

  /** The same condition on characters: not empty, no leading or trailing newline, no two newlines in a row. */
  predicate NoBlankLine(text: string) {
    && |text| > 0 && text[0] != '\n' && text[|text| - 1] != '\n'
    && forall i :: 0 <= i < |text| - 1 ==> !(text[i] == '\n' && text[i + 1] == '\n')
  }

  lemma {:induction false} NoEmptyLineChars(s: string)
    ensures NoEmptyLine(s) <==> NoBlankLine(s)
    decreases |s|
  {
    if |s| == 0 {
      assert Split(s)[0] == "";
    } else if s[0] == '\n' {
      assert Split(s)[0] == "";
    } else if |s| == 1 {
      assert Split(s) == [[s[0]] + ""];
    } else {
      var rest := Split(s[1..]);
      assert Split(s) == [[s[0]] + rest[0]] + rest[1..];
      if s[1] == '\n' {
        var t := s[1..];
        assert rest == [""] + Split(t[1..]);
        assert t[1..] == s[2..];
        NoEmptyLineChars(s[2..]);
        NoEmptyLineTail(s, rest);
        NoBlankLineSkip(s);
      } else {
        assert rest[0] != "" by {
          var t := s[1..];
          assert t[0] == s[1];
        }
        NoEmptyLineChars(s[1..]);
        NoEmptyLineTail(s, rest);
        NoBlankLineDrop(s);
      }
    }
  }

  /** With a first character that is no newline, the split of `s` has an empty piece only among the later pieces of its tail. */
  lemma NoEmptyLineTail(s: string, rest: seq<string>)
    requires |s| > 1 && s[0] != '\n' && rest == Split(s[1..])
    ensures NoEmptyLine(s) <==> forall i :: 1 <= i < |rest| ==> rest[i] != ""
  {
    var r := Split(s);
    assert r == [[s[0]] + rest[0]] + rest[1..];
    assert r[0] != "";
    forall i | 1 <= i < |r|
      ensures r[i] == rest[i]
    {
    }
  }

  lemma NoBlankLineDrop(s: string)
    requires |s| > 1 && s[0] != '\n' && s[1] != '\n'
    ensures NoBlankLine(s) <==> NoBlankLine(s[1..])
  {
    var t := s[1..];
    if NoBlankLine(t) {
      forall i | 0 <= i < |s| - 1
        ensures !(s[i] == '\n' && s[i + 1] == '\n')
      {
        if i > 0 {
          assert s[i] == t[i - 1] && s[i + 1] == t[i];
        }
      }
    }
    if NoBlankLine(s) {
      forall i | 0 <= i < |t| - 1
        ensures !(t[i] == '\n' && t[i + 1] == '\n')
      {
        assert t[i] == s[i + 1] && t[i + 1] == s[i + 2];
      }
    }
  }

  lemma NoBlankLineSkip(s: string)
    requires |s| > 1 && s[0] != '\n' && s[1] == '\n'
    ensures NoBlankLine(s) <==> NoBlankLine(s[2..])
  {
    var t := s[2..];
    if NoBlankLine(t) {
      forall i | 0 <= i < |s| - 1
        ensures !(s[i] == '\n' && s[i + 1] == '\n')
      {
        if i > 1 {
          assert s[i] == t[i - 2] && s[i + 1] == t[i - 1];
        } else if i == 1 {
          assert s[i + 1] == t[0];
        }
      }
    }
    if NoBlankLine(s) {
      assert s[|s| - 1] != '\n';
      assert |s| > 2;
      assert t[0] == s[2];
      assert !(s[1] == '\n' && s[2] == '\n');
      forall i | 0 <= i < |t| - 1
        ensures !(t[i] == '\n' && t[i + 1] == '\n')
      {
        assert t[i] == s[i + 2] && t[i + 1] == s[i + 3];
      }
    }
  }

  lemma FeedJoin(acc: Acc, line: string, maxLen: int)
    requires line != "" && '\n' !in line
    ensures Finish(Feed(acc, line, maxLen)) != []
    ensures Join(Finish(Feed(acc, line, maxLen))) == Join(Finish(acc) + [line])
  {
    var secs, buf := acc.sections, acc.buf;
    var r := Feed(acc, line, maxLen);
    if |buf| + |line| + 1 > maxLen && |buf| > 0 {
      assert r.sections == secs + [buf];
      assert r.buf == "" + line == line;
      assert Finish(Feed(acc, line, maxLen)) == Finish(acc) + [line];
    } else if |buf| > 0 {
      assert Finish(Feed(acc, line, maxLen)) == secs + [buf + "\n" + line];
      JoinLast(secs, buf, line);
    } else {
      assert r.sections == secs;
      assert r.buf == "" + line == line;
      assert Finish(Feed(acc, line, maxLen)) == secs + [line];
    }
  }

  /** Growing the last section by a newline and a line grows the join the same way. */
  lemma {:induction false} JoinLast(xs: seq<string>, b: string, l: string)
    ensures Join(xs + [b + "\n" + l]) == Join(xs + [b] + [l])
  {
    JoinSnoc(xs + [b], l);
    if |xs| > 0 {
      JoinSnoc(xs, b + "\n" + l);
      JoinSnoc(xs, b);
    }
  }

  lemma {:induction false} FeedAllJoin(acc: Acc, lines: seq<string>, maxLen: int)
    requires NoNewlines(lines)
    requires forall i :: 0 <= i < |lines| ==> lines[i] != ""
    ensures Join(Finish(FeedAll(acc, lines, maxLen))) == Join(Finish(acc) + lines)
    decreases |lines|
  {
    if |lines| > 0 {
      var next := Feed(acc, lines[0], maxLen);
      assert NoNewlines(lines[1..]);
      FeedJoin(acc, lines[0], maxLen);
      FeedAllJoin(next, lines[1..], maxLen);
      JoinShift(Finish(next), Finish(acc), lines);
    } else {
      assert Finish(acc) + lines == Finish(acc);
    }
  }

  /** Two non-empty lists with equal joins stay equal under joining after them the same lines. */
  lemma JoinShift(x: seq<string>, y: seq<string>, lines: seq<string>)
    requires |lines| > 0 && x != [] && Join(x) == Join(y + [lines[0]])
    ensures Join(x + lines[1..]) == Join(y + lines)
  {
    var rest := lines[1..];
    assert y + [lines[0]] + rest == y + lines;
    if |rest| == 0 {
      assert x + rest == x;
      assert y + lines == y + [lines[0]];
    } else {
      JoinAppend(x, rest);
      JoinAppend(y + [lines[0]], rest);
    }
  }

  /**
    Round trip: when the text has no empty line (it neither starts nor ends
    with a newline and never holds two in a row), joining the sections with
    newlines gives the text back exactly.
  */
  lemma SectionsRoundTrip(text: string, maxLen: int)
    requires NoBlankLine(text)
    ensures Join(SplitIntoSections(text, maxLen)) == text
  {
    NoEmptyLineChars(text);
    JoinSplit(text);
    if |text| > maxLen {
      SplitHasNoNewlines(text);
      FeedAllJoin(Acc([], ""), Split(text), maxLen);
      assert Finish(Acc([], "")) + Split(text) == Split(text);
    }
  }

  /**
    Text the splitter loses: an empty line that arrives right after a cut is
    dropped, because the builder was just reset and stays empty
    (main.go:149-156). Here the line `a` fills the bound by itself, so the
    empty line after it closes `a` and vanishes.
  */
  lemma CutDropsEmptyLine(a: string, b: string, maxLen: int)
    requires '\n' !in a && '\n' !in b && b != ""
    requires 0 < |a| && maxLen <= |a|
    ensures SplitIntoSections(a + "\n\n" + b, maxLen) == [a, b]
    ensures Join(SplitIntoSections(a + "\n\n" + b, maxLen)) != a + "\n\n" + b
  {
    var lines := [a, "", b];
    assert lines[1..] == ["", b] && lines[1..][1..] == [b] && lines[1..][1..][1..] == [];
    assert Join([b]) == b;
    assert Join(["", b]) == "" + "\n" + b;
    assert Join(lines) == a + "\n" + ("" + "\n" + b);
    assert a + "\n" + ("" + "\n" + b) == a + "\n\n" + b;
    SplitJoin(lines);
    var acc1 := Feed(Acc([], ""), a, maxLen);
    assert acc1 == Acc([], a);
    var acc2 := Feed(acc1, "", maxLen);
    assert acc2 == Acc([a], "");
    var acc3 := Feed(acc2, b, maxLen);
    assert acc3 == Acc([a], b);
    assert FeedAll(acc3, lines[1..][1..][1..], maxLen) == acc3;
    assert FeedAll(acc2, lines[1..][1..], maxLen) == acc3;
    assert FeedAll(acc1, lines[1..], maxLen) == acc3;
    assert FeedAll(Acc([], ""), lines, maxLen) == acc3;
    assert |Join([a, b])| == |a| + 1 + |b|;
  }

  /**
    The same loss at the end of the text: a final newline right after a cut
    becomes an empty last line, which is dropped.
  */
  lemma CutDropsFinalNewline(a: string, maxLen: int)
    requires '\n' !in a && 0 < |a| && maxLen <= |a|
    ensures SplitIntoSections(a + "\n", maxLen) == [a]
    ensures Join(SplitIntoSections(a + "\n", maxLen)) != a + "\n"
  {
    var lines := [a, ""];
    assert lines[1..] == [""] && lines[1..][1..] == [];
    assert Join([""]) == "";
    assert Join(lines) == a + "\n" + "";
    assert a + "\n" + "" == a + "\n";
    SplitJoin(lines);
    var acc1 := Feed(Acc([], ""), a, maxLen);
    assert acc1 == Acc([], a);
    var acc2 := Feed(acc1, "", maxLen);
    assert acc2 == Acc([a], "");
    assert FeedAll(acc2, lines[1..][1..], maxLen) == acc2;
    assert FeedAll(acc1, lines[1..], maxLen) == acc2;
    assert FeedAll(Acc([], ""), lines, maxLen) == acc2;
    assert Join([a]) == a;
  }

  /** `"ab\n\ncd"` and `"ab\n"` at bound 2 come back as `["ab", "cd"]` and `["ab"]`. */
  lemma LostLineExamples(t1: string, t2: string)
    requires t1 == "ab\n\ncd" && t2 == "ab\n"
    ensures SplitIntoSections(t1, 2) == ["ab", "cd"] && Join(SplitIntoSections(t1, 2)) != t1
    ensures SplitIntoSections(t2, 2) == ["ab"] && Join(SplitIntoSections(t2, 2)) != t2
  {
    assert t1 == "ab" + "\n\n" + "cd";
    assert t2 == "ab" + "\n";
    CutDropsEmptyLine("ab", "cd", 2);
    CutDropsFinalNewline("ab", 2);
  }

  /**
    The splitter returns no section at all exactly when the text is over the
    bound and made of newlines only; `main` then indexes `sections[0]`
    (main.go:123).
  */
  lemma NoSectionsIffOnlyNewlines(text: string, maxLen: int)
    ensures SplitIntoSections(text, maxLen) == [] <==> |text| > maxLen && OnlyNewlines(text)
  {
    var r := SplitIntoSections(text, maxLen);
    SectionsKeepLines(text, maxLen);
    KeepSplitEmpty(text);
    if |text| > maxLen && r != [] {
      assert HasText(r[0]);
      KeepSplitEmpty(r[0]);
      assert r == [r[0]] + r[1..];
      LinesOfAppend([r[0]], r[1..]);
      LinesOfOne(r[0]);
      KeepAppend(Split(r[0]), LinesOf(r[1..]));
    }
  }
}

=== FILE: seqs.dfy ===
/**
  Facts about sequences and multisets that the string order, the sort, the
  tree and the renderer share: removing one element, rearrangements, and
  sequences without repeats.
*/
module Seqs {

  /** No element occurs twice in `s`. */
  predicate Distinct<T(==)>(s: seq<T>) {
    forall i, j :: 0 <= i < j < |s| ==> s[i] != s[j]
  }

  lemma {:induction false} DistinctAtMostOnce<T>(s: seq<T>, x: T)
    requires Distinct(s)
    ensures multiset(s)[x] <= 1
    decreases |s|
  {
    if |s| > 0 {
      var front := s[..|s| - 1];
      assert s == front + [s[|s| - 1]];
      assert Distinct(front);
      DistinctAtMostOnce(front, x);
      if x == s[|s| - 1] {
        assert x !in front;
      }
    }
  }

  lemma RepeatCounts<T>(b: seq<T>, i: int, j: int)
    requires 0 <= i < j < |b|
    ensures b[i] == b[j] ==> multiset(b)[b[i]] >= 2
  {
    assert b == b[..i] + [b[i]] + b[i + 1..j] + [b[j]] + b[j + 1..];
  }

  /** Rearranging a sequence without repeats gives a sequence without repeats. */
  lemma DistinctPerm<T>(a: seq<T>, b: seq<T>)
    requires Distinct(a) && multiset(a) == multiset(b)
    ensures Distinct(b)
  {
    forall i, j | 0 <= i < j < |b|
      ensures b[i] != b[j]
    {
      DistinctAtMostOnce(a, b[i]);
      RepeatCounts(b, i, j);
    }
  }

  /** `s` without its element at `j`. */
  function RemoveAt<T>(s: seq<T>, j: int): (r: seq<T>)
    requires 0 <= j < |s|
    ensures s == s[..j] + [s[j]] + s[j + 1..]
    ensures multiset(r) == multiset(s) - multiset{s[j]}
    ensures multiset(s) == multiset(r) + multiset{s[j]}
  {
    assert s == s[..j] + [s[j]] + s[j + 1..];
    s[..j] + s[j + 1..]
  }

  /**
    Matching the head of `a` with an equal element of its rearrangement `b`
    leaves the rest of `a` a rearrangement of the rest of `b`.
  */
  lemma PermRest<T>(a: seq<T>, b: seq<T>, j: int)
    requires multiset(a) == multiset(b) && |a| > 0
    requires 0 <= j < |b| && b[j] == a[0]
    ensures multiset(a[1..]) == multiset(RemoveAt(b, j))
  {
    assert a == [a[0]] + a[1..];
  }

  /** Where each element of `RemoveAt(s, j)` sits in `s`. */
  lemma RemoveAtIndex<T>(s: seq<T>, j: int, k: int)
    requires 0 <= j < |s| && 0 <= k < |s| - 1
    ensures RemoveAt(s, j)[k] == if k < j then s[k] else s[k + 1]
  {
    var r := RemoveAt(s, j);
    assert r == s[..j] + s[j + 1..];
  }

  lemma RemoveAtElements<T>(s: seq<T>, j: int, x: T)
    requires Distinct(s) && 0 <= j < |s|
    ensures x in RemoveAt(s, j) <==> x in s && x != s[j]
  {
    var r := RemoveAt(s, j);
    if x in r {
      var k :| 0 <= k < |r| && r[k] == x;
      RemoveAtIndex(s, j, k);
    }
    if x in s && x != s[j] {
      var k :| 0 <= k < |s| && s[k] == x;
      if k < j {
        RemoveAtIndex(s, j, k);
      } else {
        RemoveAtIndex(s, j, k - 1);
      }
    }
  }

  lemma DistinctRemoveAt<T>(s: seq<T>, j: int)
    requires Distinct(s) && 0 <= j < |s|
    ensures Distinct(RemoveAt(s, j))
  {
    var r := RemoveAt(s, j);
    forall i, k | 0 <= i < k < |r|
      ensures r[i] != r[k]
    {
      RemoveAtIndex(s, j, i);
      RemoveAtIndex(s, j, k);
    }
  }

  /** Taking out the same element from two sequences without repeats that hold the same strings keeps them so. */
  lemma SameElementsRemove<T>(a: seq<T>, b: seq<T>, j: int)
    requires Distinct(a) && Distinct(b) && |a| > 0
    requires forall x :: x in a <==> x in b
    requires 0 <= j < |b| && b[j] == a[0]
    ensures Distinct(RemoveAt(a, 0)) && Distinct(RemoveAt(b, j))
    ensures forall x :: x in RemoveAt(a, 0) <==> x in RemoveAt(b, j)
  {
    forall x
      ensures x in RemoveAt(a, 0) <==> x in RemoveAt(b, j)
    {
      RemoveAtElements(a, 0, x);
      RemoveAtElements(b, j, x);
    }
    DistinctRemoveAt(a, 0);
    DistinctRemoveAt(b, j);
  }

  /** Two sequences without repeats that hold the same elements are rearrangements of each other. */
  lemma {:induction false} DistinctSameElements<T>(a: seq<T>, b: seq<T>)
    requires Distinct(a) && Distinct(b)
    requires forall x :: x in a <==> x in b
    ensures multiset(a) == multiset(b)
    decreases |a|
  {
    if |a| == 0 {
      forall x
        ensures multiset(b)[x] == 0
      {
        assert x !in b;
      }
      assert multiset(b) == multiset{};
    } else {
      assert a[0] in a;
      var j :| 0 <= j < |b| && b[j] == a[0];
      SameElementsRemove(a, b, j);
      var a', b' := RemoveAt(a, 0), RemoveAt(b, j);
      DistinctSameElements(a', b');
      assert multiset(a) == multiset(a') + multiset{a[0]};
      assert multiset(b) == multiset(b') + multiset{b[j]};
    }
  }

  /** Taking out a later element keeps the head and takes it out of the tail. */
  lemma RemoveLater<T>(b: seq<T>, j: int)
    requires 0 < j < |b|
    ensures (b[..j] + b[j + 1..])[0] == b[0]
    ensures (b[..j] + b[j + 1..])[1..] == b[1..][..j - 1] + b[1..][j..]
  {
  }

  /** Moving a part out of the tail of a concatenation, counted as multisets. */
  lemma MultisetShift<T>(x: seq<T>, y: seq<T>, z: seq<T>, w: seq<T>)
    requires multiset(y) == multiset(z) + multiset(w)
    ensures multiset(x + y) == multiset(z) + multiset(x + w)
  {
  }

  /** A slice from `j` is its first element followed by the slice from `j + 1`. */
  lemma SliceCons<T>(s: seq<T>, j: int)
    requires 0 <= j < |s|
    ensures s[j..] == [s[j]] + s[j + 1..]
    ensures s[j..][0] == s[j] && s[j..][1..] == s[j + 1..]
  {
  }

  /** The last element of a concatenation comes from its second part unless that part is empty. */
  lemma LastOfAppend<T>(x: seq<T>, y: seq<T>)
    requires |x| > 0
    ensures (x + y)[|x + y| - 1] == if |y| > 0 then y[|y| - 1] else x[|x| - 1]
  {
  }

  /** Concatenation is associative. */
  lemma AppendAssoc<T>(a: seq<T>, b: seq<T>, c: seq<T>)
    ensures a + (b + c) == (a + b) + c
  {
  }
}

=== FILE: sorting.dfy ===
/**
  `sortStrings`: the in-place insertion sort used to order a node's child
  names before rendering, and the functional sort the renderer is stated with.
*/
module Sorting {
  import opened Lex

  /** Appending an element that is below none of the slice keeps it ascending. */
  lemma SortedSnoc(s: seq<string>, y: string)
    requires Sorted(s)
    requires forall e :: e in s ==> !Less(y, e)
    ensures Sorted(s + [y])
  {
    forall i, j | 0 <= i < j < |s| + 1
      ensures !Less((s + [y])[j], (s + [y])[i])
    {
      if j == |s| {
        assert s[i] in s;
      }
    }
  }

  /**
    One outer step of `sortStrings` on an already ascending slice: `x` moves
    left past every element strictly above it and stops after the first one
    that is not.
  */
  function InsertSorted(s: seq<string>, x: string): (r: seq<string>)
    requires Sorted(s)
    ensures Sorted(r)
    ensures multiset(r) == multiset(s) + multiset{x}
    decreases |s|
  {
    if |s| == 0 then [x]
    else
      var front, last := s[..|s| - 1], s[|s| - 1];
      assert s == front + [last];
      if !Less(x, last) then
        assert forall e :: e in s ==> !Less(x, e) by {
          forall e | e in s
            ensures !Less(x, e)
          {
            var i :| 0 <= i < |s| && s[i] == e;
            if i < |s| - 1 {
              NotLessTransitive(e, last, x);
            }
          }
        }
        SortedSnoc(s, x);
        s + [x]
      else
        assert Sorted(front);
        var r' := InsertSorted(front, x);
        assert forall e :: e in r' ==> !Less(last, e) by {
          forall e | e in r'
            ensures !Less(last, e)
          {
            assert e in multiset(r');
            if e == x {
              LessAsymmetric(x, last);
            } else {
              assert e in multiset(front);
              var i :| 0 <= i < |front| && front[i] == e;
              assert s[i] == e;
            }
          }
        }
        SortedSnoc(r', last);
        r' + [last]
  }

  /** The result `sortStrings` leaves in its slice, stated functionally. */
  function Sort(s: seq<string>): (r: seq<string>)
    ensures Sorted(r)
    ensures multiset(r) == multiset(s)
    decreases |s|
  {
    if |s| == 0 then []
    else
      assert s == s[..|s| - 1] + [s[|s| - 1]];
      InsertSorted(Sort(s[..|s| - 1]), s[|s| - 1])
  }

  /**
    The sorted order depends only on which strings there are, not on the order
    they arrive in: Go's map iteration order cannot leak into the output.
  */
  lemma SortDeterminedByMultiset(a: seq<string>, b: seq<string>)
    requires multiset(a) == multiset(b)
    ensures Sort(a) == Sort(b)
  {
    SortedUnique(Sort(a), Sort(b));
  }

  /** The first `i` elements of `a` (all of them, if there are fewer) are ascending. */
  predicate PrefixSorted(a: seq<string>, i: int) {
    forall k, l :: 0 <= k < l < i && l < |a| ==> !Less(a[l], a[k])
  }

  /**
    Inner-loop state of `sortStrings` while the element that started at
    index `i` sits at index `j`: the rest of `a[..i+1]` is ascending and
    everything to the right of `j` up to `i` is strictly above `a[j]`.
  */
  predicate Sinking(a: seq<string>, i: int, j: int) {
    && 0 <= j <= i < |a|
    && (forall k, l :: 0 <= k < l <= i && k != j && l != j ==> !Less(a[l], a[k]))
    && (forall l :: j < l <= i ==> Less(a[j], a[l]))
  }

  lemma SinkingStart(a: seq<string>, i: int)
    requires 0 <= i < |a| && PrefixSorted(a, i)
    ensures Sinking(a, i, i)
  {
  }

  lemma SinkingSwap(a: seq<string>, i: int, j: int)
    requires Sinking(a, i, j) && j > 0 && Less(a[j], a[j - 1])
    ensures Sinking(a[j - 1 := a[j]][j := a[j - 1]], i, j - 1)
    ensures multiset(a[j - 1 := a[j]][j := a[j - 1]]) == multiset(a)
  {
    var b := a[j - 1 := a[j]][j := a[j - 1]];
    forall k, l | 0 <= k < l <= i && k != j - 1 && l != j - 1
      ensures !Less(b[l], b[k])
    {
      if k == j {
        assert !Less(a[l], a[j - 1]);
      } else if l == j {
        assert !Less(a[j - 1], a[k]);
      }
    }
    assert b == a[..j - 1] + [a[j], a[j - 1]] + a[j + 1..];
    assert a == a[..j - 1] + [a[j - 1], a[j]] + a[j + 1..];
  }

  lemma SinkingDone(a: seq<string>, i: int, j: int)
    requires Sinking(a, i, j) && (j == 0 || !Less(a[j], a[j - 1]))
    ensures PrefixSorted(a, i + 1)
  {
    forall k, l | 0 <= k < l <= i
      ensures !Less(a[l], a[k])
    {
      if l == j {
        if k < j - 1 {
          NotLessTransitive(a[k], a[j - 1], a[j]);
        }
      } else if k == j {
        LessAsymmetric(a[j], a[l]);
      }
    }
  }

  /**
    `sortStrings` (main.go:257-263) on a local copy of the slice: the outer
    loop grows an ascending prefix, the inner loop swaps the new element
    leftwards while its left neighbour is strictly greater.
  */
  method SortStrings(s: seq<string>) returns (r: seq<string>)
    ensures Sorted(r)
    ensures multiset(r) == multiset(s)
    ensures r == Sort(s)
  {
    var a := s;
    var i := 1;
    while i < |a|
      invariant 1 <= i && (|a| == 0 || i <= |a|)
      invariant multiset(a) == multiset(s)
      invariant PrefixSorted(a, i)
    {
      SinkingStart(a, i);
      var j := i;
      while j > 0 && Less(a[j], a[j - 1])
        invariant multiset(a) == multiset(s)
        invariant Sinking(a, i, j)
      {
        SinkingSwap(a, i, j);
        a := a[j - 1 := a[j]][j := a[j - 1]];
        j := j - 1;
      }
      SinkingDone(a, i, j);
      i := i + 1;
    }
    r := a;
    SortedUnique(r, Sort(s));
  }
}

=== FILE: tree.dfy ===
/**
  `TreeNode` and `buildTree` (main.go:229-254): the trie of path segments
  built from the list of matched files. Each path arrives already split into
  its segments; computing it relative to the scan directory and splitting it
  at the path separator are not part of this model.
*/
module Tree {
  import opened Options
  import opened Seqs

  /** Name of the synthetic root; a node of this name prints no line of its own. */
  const RootName: string := "."

  /**
    A `TreeNode`. Go keeps the children in a map keyed by name, and every
    child is stored under its own `Name`; here they are a sequence whose
    names are kept distinct (see `WellFormed`).
  */
  datatype Node = Node(name: string, isFile: bool, children: seq<Node>)

  /** The root `buildTree` starts from (main.go:237). */
  const Root: Node := Node(RootName, false, [])

  /** The map's key set, in the order the children are kept. */
  function Names(children: seq<Node>): (names: seq<string>)
    ensures |names| == |children|
    ensures forall i :: 0 <= i < |children| ==> names[i] == children[i].name
  {
    seq(|children|, i requires 0 <= i < |children| => children[i].name)
  }

  /** Position of the first occurrence of `x` in `s`, if any. */
  function IndexOf(s: seq<string>, x: string): (r: Option<nat>)
    ensures r.Some? ==> r.value < |s| && s[r.value] == x
    ensures r.Some? ==> forall i :: 0 <= i < r.value ==> s[i] != x
    ensures r.None? <==> x !in s
    decreases |s|
  {
    if |s| == 0 then None
    else if s[0] == x then Some(0)
    else
      match IndexOf(s[1..], x)
      case None => None
      case Some(i) => Some(i + 1)
  }

  /** Go's comma-ok lookup `node.Children[name]`: where the child of that name is kept. */
  function Child(n: Node, name: string): Option<nat> {
    IndexOf(Names(n.children), name)
  }

  /** No two children share a name: the children form a map keyed by name. */
  predicate DistinctNames(children: seq<Node>) {
    Distinct(Names(children))
  }

  /** Every node of the tree keeps its children's names distinct. */
  predicate WellFormed(n: Node) {
    DistinctNames(n.children) && forall i :: 0 <= i < |n.children| ==> WellFormed(n.children[i])
  }

  /**
    The inner loop of `buildTree` (main.go:241-251) for one path: walk down
    segment by segment, reusing the child of that name when there is one and
    otherwise creating it, flagged as a file when it is the last segment.
    The node walked through keeps its own name and flag.
  */
  function Insert(n: Node, parts: seq<string>): (r: Node)
    ensures r.name == n.name && r.isFile == n.isFile
    decreases |parts|
  {
    if |parts| == 0 then n
    else
      match Child(n, parts[0])
      case Some(k) => n.(children := n.children[k := Insert(n.children[k], parts[1..])])
      case None => n.(children := n.children + [Insert(Node(parts[0], |parts| == 1, []), parts[1..])])
  }

  /** The outer loop of `buildTree` (main.go:238-252): insert the paths in order. */
  function BuildFrom(n: Node, paths: seq<seq<string>>): Node
    decreases |paths|
  {
    if |paths| == 0 then n else BuildFrom(Insert(n, paths[0]), paths[1..])
  }

  /** `buildTree(base, files)`, with every file given as its relative path's segments. */
  function Build(paths: seq<seq<string>>): Node {
    BuildFrom(Root, paths)
  }

  /** The node reached from `n` by following the child names in `path`, if there is one. */
  function At(n: Node, path: seq<string>): Option<Node>
    decreases |path|
  {
    if |path| == 0 then Some(n)
    else
      match Child(n, path[0])
      case None => None
      case Some(k) => At(n.children[k], path[1..])
  }

  predicate Reaches(n: Node, path: seq<string>) {
    At(n, path).Some?
  }

  /**
    The first of `paths` that has `q` as a prefix: the path whose insertion
    created the node at `q`.
  */
  function FirstCover(paths: seq<seq<string>>, q: seq<string>): (r: Option<seq<string>>)
    ensures r.Some? <==> exists i :: 0 <= i < |paths| && q <= paths[i]
    ensures r.Some? ==> r.value in paths && q <= r.value
    ensures r.Some? ==>
      exists i :: 0 <= i < |paths| && r.value == paths[i] && forall j :: 0 <= j < i ==> !(q <= paths[j])
    decreases |paths|
  {
    if |paths| == 0 then None
    else if q <= paths[0] then Some(paths[0])
    else
      var r := FirstCover(paths[1..], q);
      assert forall i :: 1 <= i < |paths| ==> paths[i] == paths[1..][i - 1];
      if r.Some? then FirstCoverShift(paths, q, r.value); r else r
  }

  /** A first cover of the tail is a first cover of the whole list when the head does not cover. */
  lemma FirstCoverShift(paths: seq<seq<string>>, q: seq<string>, p: seq<string>)
    requires |paths| > 0 && !(q <= paths[0])
    requires exists i :: 0 <= i < |paths| - 1 && p == paths[1..][i] && forall j :: 0 <= j < i ==> !(q <= paths[1..][j])
    ensures exists i :: 0 <= i < |paths| && p == paths[i] && forall j :: 0 <= j < i ==> !(q <= paths[j])
  {
    var i :| 0 <= i < |paths| - 1 && p == paths[1..][i] && forall j :: 0 <= j < i ==> !(q <= paths[1..][j]);
    assert p == paths[i + 1];
    forall j | 0 <= j < i + 1
      ensures !(q <= paths[j])
    {
      if j > 0 {
        assert paths[j] == paths[1..][j - 1];
      }
    }
  }

  lemma NamesUpdate(children: seq<Node>, k: nat, c: Node)
    requires k < |children| && c.name == children[k].name
    ensures Names(children[k := c]) == Names(children)
  {
  }

  lemma NamesAppend(children: seq<Node>, c: Node)
    ensures Names(children + [c]) == Names(children) + [c.name]
  {
  }

  lemma IndexOfAppend(s: seq<string>, a: string, b: string)
    requires a !in s
    ensures IndexOf(s + [a], b) == if b == a then Some(|s|) else IndexOf(s, b)
  {
    var r := IndexOf(s + [a], b);
    if b != a {
      var r' := IndexOf(s, b);
      if r'.Some? {
        assert (s + [a])[r'.value] == s[r'.value];
      }
      if r.Some? {
        assert r.value < |s| && s[r.value] == (s + [a])[r.value];
      }
    } else {
      assert (s + [a])[|s|] == a;
    }
  }

  /** In a well-formed node the child of a given name is the one stored at its index. */
  lemma ChildOfDistinct(children: seq<Node>, i: nat)
    requires DistinctNames(children) && i < |children|
    ensures IndexOf(Names(children), children[i].name) == Some(i)
  {
    assert Names(children)[i] == children[i].name;
  }

  /** Inserting under a name `n` has no child of: a new child is appended, a file when nothing follows. */
  lemma InsertFresh(n: Node, d: string, rest: seq<string>)
    requires Child(n, d) == None
    ensures Insert(n, [d] + rest) == n.(children := n.children + [Insert(Node(d, rest == [], []), rest)])
  {
    assert ([d] + rest)[0] == d && ([d] + rest)[1..] == rest;
  }

  /** Inserting under the name of `n`'s `k`-th child descends into that child. */
  lemma InsertExisting(n: Node, k: nat, d: string, rest: seq<string>)
    requires Child(n, d) == Some(k)
    ensures Insert(n, [d] + rest) == n.(children := n.children[k := Insert(n.children[k], rest)])
  {
    assert ([d] + rest)[0] == d && ([d] + rest)[1..] == rest;
  }

  /** Inserting a path reuses existing children and never adds a second child of the same name. */
  lemma {:induction false} InsertWellFormed(n: Node, parts: seq<string>)
    requires WellFormed(n)
    ensures WellFormed(Insert(n, parts))
    decreases |parts|
  {
    if |parts| > 0 {
      var r := Insert(n, parts);
      match Child(n, parts[0])
      case Some(k) =>
        var c' := Insert(n.children[k], parts[1..]);
        InsertWellFormed(n.children[k], parts[1..]);
        assert r.children == n.children[k := c'];
        NamesUpdate(n.children, k, c');
      case None =>
        var leaf := Node(parts[0], |parts| == 1, []);
        InsertWellFormed(leaf, parts[1..]);
        var c' := Insert(leaf, parts[1..]);
        assert r.children == n.children + [c'];
        assert parts[0] !in Names(n.children);
        forall i | 0 <= i < |n.children|
          ensures n.children[i].name != c'.name
        {
          assert Names(n.children)[i] == n.children[i].name;
        }
    }
  }

  /**
    What one insertion does to the tree: afterwards `q` leads to a node
    exactly when it did before or `q` is a prefix of the inserted path; a node
    that existed keeps its file flag, and a node created by this insertion is
    a file exactly when it stands for the path's last segment.
  */
  lemma {:induction false} InsertAt(n: Node, p: seq<string>, q: seq<string>)
    ensures Reaches(Insert(n, p), q) <==> Reaches(n, q) || q <= p
    ensures Reaches(Insert(n, p), q) ==>
      At(Insert(n, p), q).value.isFile == if Reaches(n, q) then At(n, q).value.isFile else q == p
    decreases |p|, 1
  {
    if |p| == 0 || |q| == 0 {
      return;
    }
    match Child(n, p[0])
    case Some(k) => InsertAtExisting(n, p, q, k);
    case None => InsertAtFresh(n, p, q);
  }

  /** `InsertAt` when the path's first segment names an existing child. */
  lemma {:induction false} InsertAtExisting(n: Node, p: seq<string>, q: seq<string>, k: nat)
    requires |p| > 0 && |q| > 0 && Child(n, p[0]) == Some(k)
    ensures Reaches(Insert(n, p), q) <==> Reaches(n, q) || q <= p
    ensures Reaches(Insert(n, p), q) ==>
      At(Insert(n, p), q).value.isFile == if Reaches(n, q) then At(n, q).value.isFile else q == p
    decreases |p|, 0
  {
    var r := Insert(n, p);
    var a, rest := p[0], p[1..];
    var b, qs := q[0], q[1..];
    assert p == [a] + rest && q == [b] + qs;
    assert q <= p <==> b == a && qs <= rest;
    var c' := Insert(n.children[k], rest);
    assert r.children == n.children[k := c'];
    NamesUpdate(n.children, k, c');
    assert Child(r, b) == Child(n, b);
    if b == a {
      InsertAt(n.children[k], rest, qs);
    } else if Child(n, b).Some? {
      assert r.children[Child(n, b).value] == n.children[Child(n, b).value];
    }
  }

  /** `InsertAt` when the path's first segment names no child yet. */
  lemma {:induction false} InsertAtFresh(n: Node, p: seq<string>, q: seq<string>)
    requires |p| > 0 && |q| > 0 && Child(n, p[0]) == None
    ensures Reaches(Insert(n, p), q) <==> Reaches(n, q) || q <= p
    ensures Reaches(Insert(n, p), q) ==>
      At(Insert(n, p), q).value.isFile == if Reaches(n, q) then At(n, q).value.isFile else q == p
    decreases |p|, 0
  {
    var r := Insert(n, p);
    var a, rest := p[0], p[1..];
    var b, qs := q[0], q[1..];
    assert p == [a] + rest && q == [b] + qs;
    assert q <= p <==> b == a && qs <= rest;
    var leaf := Node(a, |p| == 1, []);
    var c' := Insert(leaf, rest);
    assert r.children == n.children + [c'];
    NamesAppend(n.children, c');
    IndexOfAppend(Names(n.children), a, b);
    if b == a {
      InsertAt(leaf, rest, qs);
      assert At(r, q) == At(c', qs);
      if |qs| > 0 {
        assert Child(leaf, qs[0]).None?;
      }
    } else if Child(n, b).Some? {
      assert r.children[Child(n, b).value] == n.children[Child(n, b).value];
    }
  }

  /** `InsertAt` over a whole list of paths inserted in order. */
  lemma {:induction false} BuildFromAt(n: Node, paths: seq<seq<string>>, q: seq<string>)
    ensures Reaches(BuildFrom(n, paths), q) <==> Reaches(n, q) || FirstCover(paths, q).Some?
    ensures Reaches(BuildFrom(n, paths), q) ==>
      At(BuildFrom(n, paths), q).value.isFile ==
        if Reaches(n, q) then At(n, q).value.isFile else FirstCover(paths, q) == Some(q)
    decreases |paths|
  {
    if |paths| > 0 {
      InsertAt(n, paths[0], q);
      BuildFromAt(Insert(n, paths[0]), paths[1..], q);
    }
  }

  /**
    The tree `buildTree` returns: every input path is a chain of nodes from
    the root, and no other node exists; a node is a file exactly when the
    first input path that passes through it ends there.
  */
  lemma BuildAt(paths: seq<seq<string>>, q: seq<string>)
    ensures Reaches(Build(paths), q) <==> q == [] || exists i :: 0 <= i < |paths| && q <= paths[i]
    ensures Reaches(Build(paths), q) ==>
      (At(Build(paths), q).value.isFile <==> q != [] && FirstCover(paths, q) == Some(q))
  {
    BuildFromAt(Root, paths, q);
    if |q| > 0 {
      assert Child(Root, q[0]).None?;
    }
  }

  /** The built tree keeps children's names distinct and its root is the unprinted `"."`. */
  lemma {:induction false} BuildFromWellFormed(n: Node, paths: seq<seq<string>>)
    requires WellFormed(n)
    ensures WellFormed(BuildFrom(n, paths)) && BuildFrom(n, paths).name == n.name
    decreases |paths|
  {
    if |paths| > 0 {
      InsertWellFormed(n, paths[0]);
      BuildFromWellFormed(Insert(n, paths[0]), paths[1..]);
    }
  }

  /**
    When no input path is a proper prefix of another (as for the files of a
    directory walk), the file nodes are exactly the input paths.
  */
  lemma FilesAreInputPaths(paths: seq<seq<string>>, q: seq<string>)
    requires forall i, j :: 0 <= i < |paths| && 0 <= j < |paths| ==> !(paths[i] < paths[j])
    requires q != []
    ensures Reaches(Build(paths), q) && At(Build(paths), q).value.isFile <==> q in paths
  {
    BuildAt(paths, q);
    var f := FirstCover(paths, q);
    if q in paths {
      var i :| 0 <= i < |paths| && paths[i] == q;
      assert q <= paths[i];
      var j :| 0 <= j < |paths| && paths[j] == f.value;
      assert !(paths[i] < paths[j]);
      assert |q| == |f.value| && q == f.value[..|q|] == f.value;
      assert f == Some(q);
    }
  }

  /** Following a path one step: go to the child named by its first segment. */
  lemma AtChild(t: Node, x: string, qs: seq<string>)
    ensures At(t, [x] + qs) == match Child(t, x) case None => None case Some(k) => At(t.children[k], qs)
  {
    assert ([x] + qs)[0] == x && ([x] + qs)[1..] == qs;
  }
}
